=== FILE: README.md ===
# Finance assistant core in Dafny

A Dafny model of the deterministic core of a multi-agent finance
assistant. It covers five parts of the system.

- **Analytics agent.** The technical indicators: RSI, the simple moving
  averages, the Bollinger bands and beta. Also the signals and per-symbol
  risk level derived from them, the 1-day, 1-week and 1-month look-back
  changes, the region filter, the overall-risk ladder of
  `analyze_risk_exposure` and the trend and RSI tallies of
  `get_portfolio_analytics`.
- **Fallback handler.** The canned replies and suggestions, the mapping from
  agent to error type, and the error counter with its windowed rate limit.
- **Market-data agent.** Resolution of a name or ticker through the symbol
  table. Assembly of a quote from what the price provider returned. The text
  block handed to the language model.
- **Streamlit utilities.** The API client's base URL, upload validation,
  answer formatting, text truncation and the session-state helpers.
- **Scraper.** Headline selection in `get_earnings_news`.

The modules:

| file | module | models |
|---|---|---|
| wrappers.dfy | `Wrappers` | `Option` and `Result` |
| text.dfy | `PyText` | the Python `str` operations used: `lower`, `upper`, `isupper`, `strip`, `rstrip(c)`, `in`, `split`, `join`, prefix slices |
| seqs.dfy | `Seqs` | list comprehensions: filter, map, count |
| indicators.dfy | `Indicators` | `calculate_rsi`, `calculate_moving_averages`, `calculate_bollinger_bands`, `calculate_beta` |
| signals.dfy | `Signals` | RSI, trend and Bollinger signals; the per-symbol risk level |
| summary.dfy | `Summary` | `get_technical_summary` |
| portfolio.dfy | `Portfolio` | `analyze_risk_exposure`, `get_portfolio_analytics` |
| fallback.dfy | `Fallback` | `FallbackHandler`, `get_fallback` |
| market_data.dfy | `MarketData` | `SYMBOL_MAP`, `resolve_symbol`, `get_realtime_price`, `format_price_response` |
| ui_utils.dfy | `UiUtils` | `APIClient.__init__`, `validate_audio_file`, `format_answer_response`, `truncate_text`, `SessionState` |
| scraper.dfy | `Scraper` | `get_earnings_news` |

Modelling choices:

- **NaN** is `None`. It fails every comparison, as a float NaN does, so every
  signal and risk test falls through to its neutral branch.
- **A pandas series** is a `seq<Option<real>>`, NaN until its rolling window
  is full.
- **Prices** are exact reals.
- **RSI window.** `delta.where(delta > 0, 0)` turns the leading NaN of
  `diff()` into 0. So a 14-bar RSI is defined from the 14th price onwards,
  not the 15th as a textbook RSI would need (`Indicators.RsiUndefinedIff`).
- **RSI with no losses** follows IEEE arithmetic. A positive gain over a zero
  loss gives exactly 100. Zero over zero gives NaN.
- **Changes on a zero base.** A percentage change against a zero price is
  not a finite number and is modelled as `None`.
- **I/O is a parameter.** Every provider the code calls is a parameter of the
  model: Yahoo Finance history and quotes, the RSS feed, article pages, the
  clock. What a provider can return is a `Summary.ProviderData`: the band
  deviation is never negative, and there are at most 60 aligned return pairs,
  fewer than the closes.
- **The handler's mutable fields** become a `Handler` value that every
  operation takes and returns.
- **Streamlit's session state** is a map from keys to a `SessionValue`.

Behaviour of the code that the model keeps as written:

- **The third test in `resolve_symbol` can never fire.** It repeats the second
  one, so no `.NS` suffix is ever appended (`MarketData.NsSuffixOnlyFromTable`).
- **The `us` region test is a substring test.** "Australia" selects the US list
  (`Portfolio.AustraliaMatchesUs`).
- **Health reports count before they reset.** `get_health_status` reads the
  error count before `is_rate_limited` may reset it. One report can therefore
  say "unhealthy" while resetting the count to zero
  (`Fallback.HealthReportPrecedesReset`).
- **A single close, or closes that are all 0, raise.** `pct_change()` is
  NaN where a close and the one before it are both 0, and `dropna()` drops
  those returns. With one close, or only zero closes, no return is left and
  `.iloc[-1]` in `calculate_volatility` raises `IndexError`
  (`Summary.NoReturnsIff`). The exception escapes `get_technical_summary`
  and aborts the whole of `analyze_risk_exposure` and
  `get_portfolio_analytics` (`Summary.TechnicalSummary`,
  `Summary.ZeroHistoryRaises`, `Portfolio.Analyses`).
- **The "no signals" sentinel is ambiguous.** The scraper uses an ordinary
  string for it, so a relevant headline equal to that string is
  indistinguishable from no relevant headline (`Scraper.SentinelTitleIsAmbiguous`).

## Model

| member | source | states |
|---|---|---|
| `Indicators.RollingMeanSeries` | agents/analytics_agent.py:72-75 | a one-pass running-sum rolling mean is NaN exactly until the window is full, then equals the mean of the last `w` points |
| `Indicators.CalculateMovingAverages` | agents/analytics_agent.py:60-75 | both averages have one entry per price, are NaN until the 20th (50th) price, and are then the mean of the last 20 (50) prices |
| `Indicators.Gains` | agents/analytics_agent.py:51-52 | the gain series is non-negative, one per price, starts with the 0 that replaces the leading NaN, and is positive exactly where the price rose |
| `Indicators.Losses` | agents/analytics_agent.py:51-53 | the loss series is non-negative, one per price, starts with a 0, and is positive exactly where the price fell |
| `Indicators.GainsMinusLossesIsChange` | agents/analytics_agent.py:51-53 | each price change splits into its gain and loss parts, at most one of them non-zero |
| `Indicators.RsiFromAverages` | agents/analytics_agent.py:55-56 | RSI lies in [0, 100]; it is below 100 when there were losses; it is undefined only when nothing moved; and it is the gains' share of the total movement |
| `Indicators.RsiShareOfGains` | agents/analytics_agent.py:55-56 | `100 - 100/(1 + g/l)` equals `100 g / (g + l)` and lies in [0, 100) |
| `Indicators.RsiAt` | agents/analytics_agent.py:36-57 | the RSI at a bar is NaN before the window fills; then it is NaN exactly when the window's average gain and loss are both 0, and otherwise the average gain's percentage of their sum, within [0, 100] |
| `Indicators.CalculateRsi` | agents/analytics_agent.py:36-57 | one RSI value per price: NaN before the window fills, then NaN exactly on a flat window, otherwise the average gain's percentage of the average movement |
| `Indicators.RsiUndefinedIff` | agents/analytics_agent.py:51-56 | the RSI is NaN exactly when fewer than `period` prices exist or the price did not move across the window |
| `Indicators.BandAt` | agents/analytics_agent.py:92-98 | the bands exist exactly once the window is full; the middle is the window mean and the bands are `std * mult` above and below it |
| `Indicators.CalculateBollingerBands` | agents/analytics_agent.py:78-99 | one band triple per price, defined from the 20th price, the middle the window mean and the bands that bar's deviation times the multiplier either side; ordered for a non-negative deviation |
| `Indicators.VarianceNonNegative` | agents/analytics_agent.py:145 | the sample variance of the market returns is never negative |
| `Indicators.Beta` | agents/analytics_agent.py:136-150 | beta defaults to 1.0 with fewer than 10 aligned returns or a flat market |
| `Indicators.BetaOfMarketIsOne` | agents/analytics_agent.py:136-150 | a stock whose returns always equal the market's has beta exactly 1 |
| `Indicators.BetaSignFollowsCovariance` | agents/analytics_agent.py:144-150 | once computed, beta is positive exactly when the covariance with the market is positive, and negative exactly when it is negative |
| `Signals.RsiSignalOf` | agents/analytics_agent.py:193 | overbought exactly above 70, oversold exactly below 30, neutral otherwise, including NaN |
| `Signals.TrendSignalOf` | agents/analytics_agent.py:194 | bullish exactly when SMA20 > SMA50, bearish exactly when below, neutral when equal or either is NaN |
| `Signals.TrendSignalAntisymmetric` | agents/analytics_agent.py:194 | swapping the two averages swaps bullish and bearish |
| `Signals.BandSignalOf` | agents/analytics_agent.py:195 | near upper exactly above 98% of the upper band; near lower only otherwise and below 102% of the lower band |
| `Signals.NearUpperWinsOnNarrowBand` | agents/analytics_agent.py:195 | on a narrow band both proximity tests can hold and the upper one wins |
| `Signals.RiskLevelOf` | agents/analytics_agent.py:218 | high exactly when volatility > 30 or beta > 1.5; medium exactly when not high and volatility > 20 or beta > 1.0; low otherwise |
| `Signals.RiskMonotoneInVolatility` | agents/analytics_agent.py:218 | more volatility never lowers the risk level |
| `Signals.RiskMonotoneInBeta` | agents/analytics_agent.py:218 | a higher beta never lowers the risk level |
| `Signals.UndefinedVolatilityRatesAsCalm` | agents/analytics_agent.py:218 | a NaN volatility rates like any volatility of at most 20 |
| `Summary.PercentChange` | agents/analytics_agent.py:198-200 | the change is undefined only on a zero base; on a positive base it has the sign of the move and satisfies `c * base == (price - base) * 100` |
| `Summary.ChangeOver` | agents/analytics_agent.py:198-200 | the change is 0 until the series is longer than its guard, then it is measured against the bar `back` places from the end |
| `Summary.SummaryBeta` | agents/analytics_agent.py:186-190 | with no benchmark history, or fewer than 10 aligned returns, beta is 1.0; otherwise it is `calculate_beta` of the aligned returns |
| `Summary.TechnicalSummary` | agents/analytics_agent.py:163-219 | returns the no-data error on an empty history and raises `IndexError` on a single close or on closes that are all 0. Otherwise every label agrees with the value reported beside it, each indicator is defined exactly once its window is full, the volatility is NaN up to 20 closes, and beta is 1.0 without a benchmark and `calculate_beta` of the aligned returns with one |
| `Summary.KeptReturns` | agents/analytics_agent.py:113 | `pct_change().dropna()` keeps fewer returns than there are closes |
| `Summary.NoReturnsIff` | agents/analytics_agent.py:113-114 | no return survives `dropna()` exactly on a single close or on closes that are all 0, which is when `.iloc[-1]` raises |
| `Summary.ZeroHistoryRaises` | agents/analytics_agent.py:113-114 | two closes of 0 make the summary raise `IndexError` |
| `Summary.VolatilityOf` | agents/analytics_agent.py:113-114 | a 20-return rolling deviation needs more than 20 closes; with more it is the provider's value |
| `Summary.SummaryRsiValue` | agents/analytics_agent.py:51-57 | the RSI reported at the last bar is NaN with fewer than 14 closes or a flat last 14 bars, else the average gain's percentage of the average movement over them |
| `Summary.SummaryAverageValues` | agents/analytics_agent.py:175-177 | the reported SMA20 and SMA50 are the means of the last 20 and 50 closes |
| `Summary.SummaryBandValues` | agents/analytics_agent.py:179-181 | the reported bands are the mean of the last 20 closes plus and minus twice the rolling deviation, so the lower band never lies above the upper |
| `Summary.ShortHistoryIsLowRisk` | agents/analytics_agent.py:136-142 | with at most 10 closes there are too few aligned returns, so beta is 1.0, and with the volatility NaN the risk level (line 218) is Low |
| `Summary.ShortHistoryRiskFollowsBeta` | agents/analytics_agent.py:218 | up to 20 closes the volatility is NaN (lines 113-114) and the risk level is decided by beta alone |
| `Summary.LookBackGuards` | agents/analytics_agent.py:198-200 | on every history that reaches them, the 1d change uses the previous bar, and the 1w/1m changes use bars 5 and 20 from the end once the series is longer than 5 and 20 bars, 0 before |
| `Summary.ShortHistoryTrendIsNeutral` | agents/analytics_agent.py:175-194 | with fewer than 50 closes the trend is neutral whatever the prices do |
| `Portfolio.RegionOf` | agents/analytics_agent.py:239-246 | an absent or empty filter selects nothing; otherwise `asia`, then `us`/`america`, then `europe`, each checked as a substring of the lower-cased text |
| `Portfolio.RegionFilter` | agents/analytics_agent.py:239-249 | never empty. Under a region with a listed symbol, the result is the listed symbols in input order, each as often as requested; with none listed, the region's default alone |
| `Portfolio.DefaultIsListed` | agents/analytics_agent.py:242-246 | each region's default symbol is in that region's list |
| `Portfolio.RegionListsAreUpperCase` | agents/analytics_agent.py:234-236 | upper-casing a region list changes nothing |
| `Portfolio.AsiaFilterFallsBackToDefault` | agents/analytics_agent.py:241-242 | `["MSFT"]` under an Asia filter becomes `["TSM"]` |
| `Portfolio.AustraliaMatchesUs` | agents/analytics_agent.py:243 | "Australia" selects the US region |
| `Portfolio.Analyses` | agents/analytics_agent.py:255-258 | raises exactly when some symbol has a single close or only zero closes; otherwise one summary per symbol with data, each that symbol's own |
| `Portfolio.AnalysesFollowInput` | agents/analytics_agent.py:255-258 | the analysed symbols are the input symbols with data, in input order and with repeats kept |
| `Portfolio.OneFailureOfThree` | agents/analytics_agent.py:310-314 | three symbols, one without data, give two analyses |
| `Portfolio.TotalVolatility` | agents/analytics_agent.py:252-259 | the loop's running total is NaN exactly when some volatility is, and otherwise the sum of the volatilities |
| `Portfolio.OverallRiskOf` | agents/analytics_agent.py:269-282 | high exactly on a strict majority of high-risk positions; then medium-high exactly above 25 average volatility; then medium exactly above 1.2 average beta; else low-medium |
| `Portfolio.AverageVolatility` | agents/analytics_agent.py:265 | NaN exactly when some volatility is, otherwise the mean of the volatilities |
| `Portfolio.RiskReportOf` | agents/analytics_agent.py:262-294 | the report echoes the region (or "Global") and lists the high-risk symbols in order; its averages are the mean volatility and mean beta; its level is the ladder applied to the high-risk count and those means, with the matching summary text |
| `Portfolio.AnalyzeRiskExposure` | agents/analytics_agent.py:222-294 | raises exactly when a filtered symbol has a single close or only zero closes, returns the error exactly when no filtered symbol has data, and otherwise reports on the filtered symbols with data, in order, each stock being the technical summary of that symbol's own data, with every high-risk position among them |
| `Portfolio.ExposureOf` | agents/analytics_agent.py:251-294 | the same three outcomes for the symbols left by the region filter, with each reported stock the summary of its own data |
| `Portfolio.SentimentOf` | agents/analytics_agent.py:333 | bullish exactly when bullish trends outnumber bearish, bearish exactly the reverse, mixed on a tie |
| `Portfolio.TrendCountsPartition` | agents/analytics_agent.py:320-329 | bullish, bearish and neutral counts add up to the number of positions |
| `Portfolio.RsiCountsBounded` | agents/analytics_agent.py:322-323 | overbought plus oversold never exceeds the number of positions |
| `Portfolio.PortfolioAnalytics` | agents/analytics_agent.py:297-335 | the no-symbols error; raises exactly when a symbol has a single close or only zero closes; the no-stocks error exactly when no symbol has data. On success each tally counts the analyses with its label, they partition the positions, and the sentiment compares bullish with bearish |
| `Fallback.ResponseText` | orchestrator/fallback_handler.py:86 | the message is one of the canned replies: the one for a known type, the general one otherwise |
| `Fallback.RelevantSuggestions` | orchestrator/fallback_handler.py:124-131 | one to three suggestions, all from the fixed list: the voice tip for voice errors, the first three for missing context or data, the first two otherwise |
| `Fallback.RecordError` | orchestrator/fallback_handler.py:113-114 | logging an error adds one to the count and stamps the time |
| `Fallback.GetFallbackResponse` | orchestrator/fallback_handler.py:63-104 | never a success; echoes the error type; carries the query only when it is non-empty and suggestions only when asked; counts one error |
| `Fallback.ErrorTypeFor` | orchestrator/fallback_handler.py:150-159 | every agent maps to a type that has a canned reply; unknown agents map to "general" |
| `Fallback.HandleAgentFailure` | orchestrator/fallback_handler.py:133-166 | the agent's error type, its reply and its suggestions; the query kept when non-empty |
| `Fallback.IsRateLimited` | orchestrator/fallback_handler.py:168-189 | never limited before any error. Once the window has passed it resets the count and reports false; within it, limited exactly at `max_errors` errors |
| `Fallback.RateLimitCheckIdempotent` | orchestrator/fallback_handler.py:179-189 | asking twice at the same moment changes nothing the second time |
| `Fallback.GetHealthStatus` | orchestrator/fallback_handler.py:191-198 | reports the count as it was before the rate check, healthy exactly below 5 errors, and the rate check's verdict |
| `Fallback.HealthReportPrecedesReset` | orchestrator/fallback_handler.py:191-198 | one report can call the handler unhealthy while resetting its count to zero |
| `Fallback.GetFallback` | orchestrator/fallback_handler.py:205-221 | the canned message for the type, counting one error, without suggestions |
| `Fallback.ErrorCountBoundedByResponses` | orchestrator/fallback_handler.py:106-189 | over any sequence of calls the count grows by at most the number of fallback responses |
| `Fallback.ErrorCountCountsResponses` | orchestrator/fallback_handler.py:106-114 | without rate or health checks the count grows by exactly the number of responses |
| `Fallback.RateLimitNeedsEnoughErrors` | orchestrator/fallback_handler.py:168-189 | a fresh handler is rate limited only after at least `max_errors` responses |
| `MarketData.ResolveSymbol` | agents/market_data_agent.py:122-147 | a name in the table resolves to its entry; otherwise the query comes back unchanged exactly when it looks like a ticker, and nothing otherwise |
| `MarketData.NsSuffixOnlyFromTable` | agents/market_data_agent.py:138-145 | the `.NS` branch is dead: the query plus `.NS` is returned only if the table maps the name to it |
| `MarketData.LookupIgnoresPaddingAndCase` | agents/market_data_agent.py:132-136 | surrounding whitespace and upper-casing do not change how a known name resolves |
| `MarketData.ResolvePaddedName` | agents/market_data_agent.py:19-136 | `"  TSMC "` resolves to `TSM` |
| `MarketData.UnknownLowerCaseNameUnresolved` | agents/market_data_agent.py:132-147 | a name outside the table with no upper-case letter resolves to nothing |
| `MarketData.TickerFor` | agents/market_data_agent.py:162-166 | the resolved ticker, or the upper-cased query when resolution fails |
| `MarketData.RealtimePrice` | agents/market_data_agent.py:150-219 | the two unavailable paths and their messages. On success it states the ticker, the price source, defaults and name fallback, and a missing or zero previous close giving no change; otherwise change plus previous close is the price and the percentage agrees with the analytics percent change |
| `MarketData.DayChangeAgreesWithPercent` | agents/market_data_agent.py:195-197 | with a positive previous close, the change and its percentage have the same sign as the move |
| `MarketData.ChangeSign` | agents/market_data_agent.py:235 | "+" exactly for a non-negative change, nothing for a negative one |
| `MarketData.FormatPriceResponse` | agents/market_data_agent.py:222-246 | unavailable data gives its message; a quote gives a newline-framed block |
| `MarketData.FormatPriceResponseLines` | agents/market_data_agent.py:235-246 | split back into lines, the block gives the header, the stock, the signed day change and the timestamp in their places |
| `PyText.SplitJoin` | agents/market_data_agent.py:237-246 | splitting a join on its separator gives back the pieces when none contains it |
| `PyText.StripIgnoresPadding` | agents/market_data_agent.py:132 | `strip` ignores whitespace added on either side |
| `PyText.RStripChar` | streamlit_app/utils.py:32 | the result is a prefix of the input, the removed tail is all that character, and the result does not end with it |
| `Seqs.Filter` | agents/analytics_agent.py:242 | the filtered list is a subsequence holding exactly the elements that pass, each as often as in the input |
| `Seqs.CountZeroIff` | agents/analytics_agent.py:262-263 | nothing is counted exactly when no element passes |
| `UiUtils.NewApiClient` | streamlit_app/utils.py:24-33 | the base URL loses its trailing slashes and nothing else; the timeout is kept |
| `UiUtils.EndpointHasSingleSlash` | streamlit_app/utils.py:32-47 | however many slashes the configured URL ends with, an endpoint URL has exactly one before the path |
| `UiUtils.NewApiClientIdempotent` | streamlit_app/utils.py:32 | a client built from a client's URL has the same URL |
| `UiUtils.SplitExt` | streamlit_app/utils.py:146-147 | root and extension concatenate back to the name; the extension is empty or one dot followed by no dot or slash |
| `UiUtils.SplitExtFindsExtension` | streamlit_app/utils.py:146-147 | a name whose last component has a stem, followed by a dot and text with no dot or slash, is split exactly before that dot |
| `UiUtils.TooLarge` | streamlit_app/utils.py:152-157 | the megabyte comparison is exactly a byte count above 25 x 2^20 |
| `UiUtils.Empty` | streamlit_app/utils.py:152-160 | a zero size in megabytes is exactly a zero byte count |
| `UiUtils.ValidateAudioFile` | streamlit_app/utils.py:132-162 | valid exactly for a present file with an allowed extension and 1 byte to 25 MiB. The message is empty exactly when valid, and the checks run in the order none, extension, size, empty |
| `UiUtils.AcceptedNameEndsWithExtension` | streamlit_app/utils.py:146-148 | an accepted name ends, in any case, with an allowed extension |
| `UiUtils.HiddenAudioNameRefused` | streamlit_app/utils.py:146-149 | a file named `.wav` has no extension and is refused |
| `UiUtils.SizeLimitIsInclusive` | streamlit_app/utils.py:152-157 | exactly 25 MiB is accepted, one byte more is refused |
| `UiUtils.FormatAnswerResponse` | streamlit_app/utils.py:214-241 | an error key wins. Otherwise the result is an answer exactly when both question and answer are present, carrying them and the optional audio file |
| `UiUtils.ErrorKeyWins` | streamlit_app/utils.py:224-228 | setting an error key makes the answer that server error, whatever else the response holds |
| `UiUtils.OtherKeysIgnored` | streamlit_app/utils.py:224-241 | keys other than error, question, answer and answer_audio_file never change the result |
| `UiUtils.QuestionAndAnswerSuffice` | streamlit_app/utils.py:230-236 | a question and an answer without an error give exactly that answer, with the audio file when present |
| `UiUtils.TruncateText` | streamlit_app/utils.py:244-257 | a text within the limit is unchanged. A longer one ends in "..." after a prefix, and for limits of 3 or more it has exactly the limit's length |
| `UiUtils.TruncateOverrunsShortLimit` | streamlit_app/utils.py:255-257 | with a limit below 3 the truncated text is longer than the limit |
| `UiUtils.TruncateTextBounded` | streamlit_app/utils.py:244-257 | corrected truncation: never longer than a non-negative limit, and the same as `truncate_text` for limits of 3 or more |
| `UiUtils.TruncateBoundedIdempotent` | streamlit_app/utils.py:244-257 | truncating again to the same limit changes nothing |
| `UiUtils.InitDefaults` | streamlit_app/utils.py:272-291 | adds every missing default, keeps every existing value |
| `UiUtils.InitDefaultsIdempotent` | streamlit_app/utils.py:289-291 | initialising twice is initialising once |
| `UiUtils.DefaultsProvideHistory` | streamlit_app/utils.py:280-291 | a fresh session gets an empty chat history |
| `UiUtils.AddToHistory` | streamlit_app/utils.py:293-309 | appends exactly one entry, records the last question and answer, changes no other key |
| `UiUtils.ClearHistory` | streamlit_app/utils.py:311-321 | empties the history and the last question and answer, changes no other key |
| `UiUtils.ClearUndoesAdd` | streamlit_app/utils.py:303-321 | clearing after adding is the same as clearing |
| `UiUtils.HistoryRecordsEveryExchange` | streamlit_app/utils.py:303-309 | after any number of additions the history is the old one followed by exactly those exchanges in order |
| `UiUtils.GetApiClient` | streamlit_app/utils.py:324-337 | a client is created and stored only when none is stored; the stored value is returned |
| `Scraper.Considered` | data_ingestion/scraper_agent.py:18 | at most the first five entries, in order |
| `Scraper.GetEarningsNews` | data_ingestion/scraper_agent.py:7-40 | the ticker is always echoed; a failed or empty feed is an error, and so is a missing title or link among the first five entries, named after the first missing attribute. Otherwise all headlines of the first five entries are listed, and the relevant ones in order, or the sentinel when none is relevant |
| `Scraper.FirstIncomplete` | data_ingestion/scraper_agent.py:18-20 | the first entry whose title or link is missing, or none exactly when all have both |
| `Scraper.MapFilterSubsequence` | data_ingestion/scraper_agent.py:18-31 | headlines of selected entries form a subsequence of all headlines |
| `Scraper.RelevantAmongAll` | data_ingestion/scraper_agent.py:18-37 | the relevant list is the sentinel or a selection of all headlines, in the same order |
| `Scraper.LaterEntriesIgnored` | data_ingestion/scraper_agent.py:18 | entries after the fifth never change the result |
| `Scraper.FourKeywordsSuffice` | data_ingestion/scraper_agent.py:30 | the six keywords match exactly the texts the four words "beat", "miss", "surprise", "falls short" match |
| `Scraper.FailedFetchKeepsHeadline` | data_ingestion/scraper_agent.py:23-28 | an article that cannot be fetched keeps its headline but is never relevant |
| `Scraper.MissingLinkAbortsCall` | data_ingestion/scraper_agent.py:18-40 | an entry without a link turns the whole call into an error, even after good entries |
| `Scraper.SentinelTitleIsAmbiguous` | data_ingestion/scraper_agent.py:35 | a relevant article titled like the sentinel reads the same as no relevant article |

## Left out

- Network and provider calls are left out: Yahoo Finance, the RSS feed, the article pages and the backend's HTTP endpoints (`ask_text`, `ask_audio`, `get_audio_file`, `health_check`). What they return is a parameter.
- `round(x, 2)` on every reported number is left out. The model reports exact values. Where a rounded value feeds a decision, the lines below say so.
- Summary.TechnicalSummary: `calculate_beta` rounds beta to two decimals (agents/analytics_agent.py:150) before `risk_level` compares it with 1.5 and 1.0 (line 218). The model compares the exact quotient, so an exact beta of 1.503 rates High here and Medium in Python. Python's `round` acts on the binary float, which exact reals cannot reproduce.
- Portfolio.OverallRiskOf: the average beta compared with 1.2 (agents/analytics_agent.py:277) is, in Python, a mean of betas already rounded to two decimals. The model averages the exact betas.
- MarketData.ChangeSign: `format_price_response` tests the sign of the day change after `get_realtime_price` rounded it (agents/market_data_agent.py:207). A change of -0.004 rounds to -0.0 and gets "+" in Python. The model tests the exact change and gives "".
- Summary.SymbolData: the stock column of the benchmark pairs is not derived from the closes' percentage changes, because date alignment with the market series and the infinite return of a zero close are not modelled. Only their count is tied to the closes: at most 60, and fewer than the closes.
- The value of `calculate_volatility` on more than 20 closes, and the rolling standard deviation of the Bollinger bands, are inputs. They need a square root and floating-point rounding. When the volatility is NaN for lack of returns, and when it raises (a single close or only zero closes), is modelled.
- `get_stock_data` is left out; its result is the `closes` input.
- In `calculate_beta`, the date alignment of the two return series and the 60-bar tail are left out. The model takes the already aligned pairs.
- Clocks are left out. `datetime.now()` is a `now` or `timestamp` parameter, and time is in seconds.
- Logging is left out.
- Letter case is ASCII only. `lower`, `upper` and `isupper` treat every non-ASCII character as uncased.
- The extension set's iteration order is left out. In the unsupported-type message it depends on string hashing, so it is a parameter constrained to list each allowed extension once.
- The file helpers are left out: `save_temp_audio`, `cleanup_temp_file`, `get_audio_mime_type`, `format_timestamp` and `get_example_questions`. They are temporary files, MIME tables, the clock and a constant list.
- `handle_exception` is left out. It only forwards to `handle_agent_failure` on the global handler.
- Exceptions inside `get_realtime_price` other than the provider's own are folded into the provider failure. One example is rounding a missing price.
- The default message of `format_price_response` is left out: the modelled unavailable result always carries a message.
- Indicators.Beta: the contract states only the two default cases. The general value is characterised through `Indicators.BetaOfMarketIsOne` and `Indicators.BetaSignFollowsCovariance`, not as a closed form.
- UiUtils.SplitExt: models POSIX `os.path.splitext`. On Windows `\` is also a separator and is not modelled.
- Scraper.AttributeErrorMessage: the error text for a missing entry attribute follows feedparser's `FeedParserDict`, which is not part of this model.
- MarketData.FormatPriceResponse: the contract states the framing only. The line contents are stated by `MarketData.FormatPriceResponseLines`, for fields without newlines.

## Findings

| source | as written | input that shows it | evidently intended | confidence | as-written member | corrected member |
|---|---|---|---|---|---|---|
| streamlit_app/utils.py:255-257 | a text longer than `max_length` becomes `text[:max_length - 3] + "..."` | `truncate_text("hello", 2)` gives `"hell..."`, 7 characters for a limit of 2 | the result is never longer than `max_length` | medium; not executed; the only call in the file uses 50 | `UiUtils.TruncateOverrunsShortLimit` | `UiUtils.TruncateTextBounded` |

=== FILE: fallback.dfy ===
/** The orchestrator's `FallbackHandler`: canned replies per error type,
    suggestion subsets, the agent-to-error-type table, and a small error
    counter with a windowed rate-limit check.

    The handler's two mutable fields become an immutable `Handler` value
    that every operation takes and returns. The clock is a parameter `now`
    in seconds; logging is left out. */
module Fallback {
  import opened Wrappers

  const GeneralError: string := "general"

  const DefaultResponses: map<string, string> := map[
    "no_context" := "I couldn't find specific information about that topic in my knowledge base. "
      + "Please try rephrasing your question or ask about a different topic.",
    "api_error" := "I'm having trouble connecting to the data source right now. "
      + "Please try again in a few moments.",
    "llm_error" := "I encountered an issue while generating a response. "
      + "Please try again or simplify your question.",
    "voice_error" := "I had trouble processing the audio. "
      + "Please make sure the recording is clear and try again.",
    "timeout" := "The request took too long to process. "
      + "Please try a simpler query or try again later.",
    "invalid_input" := "I couldn't understand your request. "
      + "Please provide a clear financial question.",
    "no_data" := "No market data is available for that symbol or time period. "
      + "Please check the ticker symbol and try again.",
    GeneralError := "Something went wrong while processing your request. "
      + "Please try again later or contact support."
  ]

  const Suggestions: seq<string> := [
    "Try asking about specific stock tickers like AAPL, TSMC, or MSFT",
    "Ask about earnings reports, price trends, or market analysis",
    "You can ask questions like 'What is the RSI for Apple?' or 'Did TSMC beat earnings?'",
    "For voice queries, speak clearly and avoid background noise"
  ]

  /** `DEFAULT_RESPONSES.get(error_type, DEFAULT_RESPONSES["general"])` */
  function ResponseText(errorType: string): (m: string)
    ensures m in DefaultResponses.Values
    ensures errorType in DefaultResponses ==> m == DefaultResponses[errorType]
    ensures errorType !in DefaultResponses ==> m == DefaultResponses[GeneralError]
  {
    if errorType in DefaultResponses then DefaultResponses[errorType]
    else DefaultResponses[GeneralError]
  }

  /** `_get_relevant_suggestions(error_type)` */
  function RelevantSuggestions(errorType: string): (r: seq<string>)
    ensures 0 < |r| <= 3
    ensures forall i :: 0 <= i < |r| ==> r[i] in Suggestions
    ensures errorType == "voice_error" ==> r == [Suggestions[3]]
    ensures errorType in {"no_context", "no_data"} ==> r == Suggestions[..3]
    ensures errorType !in {"voice_error", "no_context", "no_data"} ==> r == Suggestions[..2]
  {
    if errorType == "voice_error" then [Suggestions[3]]
    else if errorType in ["no_context", "no_data"] then Suggestions[..3]
    else [Suggestions[0], Suggestions[1]]
  }

  /** The handler's state: `error_count` and `last_error_time`. */
  datatype Handler = Handler(errorCount: nat, lastErrorTime: Option<real>)

  /** `FallbackHandler()` */
  const InitialHandler: Handler := Handler(0, None)

  datatype FallbackResponse = FallbackResponse(
    success: bool,
    errorType: string,
    message: string,
    timestamp: real,
    originalQuery: Option<string>,
    suggestions: Option<seq<string>>)

  /** The counting part of `_log_error`. */
  function RecordError(h: Handler, now: real): (h': Handler)
    ensures h'.errorCount == h.errorCount + 1
    ensures h'.lastErrorTime == Some(now)
  {
    Handler(h.errorCount + 1, Some(now))
  }

  /** `get_fallback_response(error_type, original_query, error_details,
      include_suggestions)`; the details only reach the log. */
  function GetFallbackResponse(h: Handler, now: real, errorType: string, originalQuery: Option<string>,
                               includeSuggestions: bool): (r: (Handler, FallbackResponse))
    ensures r.0.errorCount == h.errorCount + 1 && r.0.lastErrorTime == Some(now)
    ensures !r.1.success
    ensures r.1.errorType == errorType
    ensures r.1.message == ResponseText(errorType)
    ensures r.1.timestamp == now
    ensures r.1.originalQuery.Some? <==> originalQuery.Some? && originalQuery.value != ""
    ensures r.1.originalQuery.Some? ==> r.1.originalQuery == originalQuery
    ensures r.1.suggestions.Some? <==> includeSuggestions
    ensures r.1.suggestions.Some? ==> r.1.suggestions.value == RelevantSuggestions(errorType)
  {
    var h' := RecordError(h, now);
    var query := if originalQuery.Some? && originalQuery.value != "" then originalQuery else None;
    var suggestions := if includeSuggestions then Some(RelevantSuggestions(errorType)) else None;
    (h', FallbackResponse(false, errorType, ResponseText(errorType), now, query, suggestions))
  }

  const AgentErrorTypes: map<string, string> := map[
    "api_agent" := "api_error",
    "scraper_agent" := "api_error",
    "language_agent" := "llm_error",
    "retriever_agent" := "no_context",
    "voice_agent" := "voice_error",
    "analytics_agent" := "no_data"
  ]

  /** `error_type_map.get(agent_name, "general")` */
  function ErrorTypeFor(agentName: string): (t: string)
    ensures t in DefaultResponses
    ensures agentName in AgentErrorTypes ==> t == AgentErrorTypes[agentName]
    ensures agentName !in AgentErrorTypes ==> t == GeneralError
  {
    if agentName in AgentErrorTypes then AgentErrorTypes[agentName] else GeneralError
  }

  /** `handle_agent_failure(agent_name, query, exception)`: the exception
      text only reaches the log, so it is not a parameter. */
  function HandleAgentFailure(h: Handler, now: real, agentName: string, query: string): (r: (Handler, FallbackResponse))
    ensures r.0.errorCount == h.errorCount + 1
    ensures r.1.errorType == ErrorTypeFor(agentName)
    ensures r.1.message == DefaultResponses[ErrorTypeFor(agentName)]
    ensures r.1.originalQuery == (if query == "" then None else Some(query))
    ensures r.1.suggestions == Some(RelevantSuggestions(ErrorTypeFor(agentName)))
  {
    GetFallbackResponse(h, now, ErrorTypeFor(agentName), Some(query), true)
  }

  const DefaultMaxErrors: int := 10
  const DefaultWindowSeconds: int := 60

  /** `is_rate_limited(max_errors, window_seconds)`: a window that has
      passed since the last error resets the counter. */
  function IsRateLimited(h: Handler, now: real, maxErrors: int, windowSeconds: int): (r: (Handler, bool))
    ensures h.lastErrorTime.None? ==> r == (h, false)
    ensures r.1 ==> h.errorCount >= maxErrors && r.0 == h
    ensures r.0.lastErrorTime == h.lastErrorTime
    ensures r.0 != h ==> r.0.errorCount == 0 && !r.1
    ensures h.lastErrorTime.Some? && now - h.lastErrorTime.value > windowSeconds as real ==>
      r == (Handler(0, h.lastErrorTime), false)
    ensures h.lastErrorTime.Some? && now - h.lastErrorTime.value <= windowSeconds as real ==>
      r == (h, h.errorCount >= maxErrors)
  {
    match h.lastErrorTime
    case None => (h, false)
    case Some(last) =>
      if now - last > windowSeconds as real then (Handler(0, h.lastErrorTime), false)
      else (h, h.errorCount >= maxErrors)
  }

  /** Asking twice at the same moment changes nothing the second time. */
  lemma RateLimitCheckIdempotent(h: Handler, now: real, maxErrors: int, windowSeconds: int)
    ensures var (h1, b1) := IsRateLimited(h, now, maxErrors, windowSeconds);
      IsRateLimited(h1, now, maxErrors, windowSeconds) == (h1, b1)
  {
  }

  datatype HealthStatus = HealthStatus(
    errorCount: nat,
    lastErrorTime: Option<real>,
    isHealthy: bool,
    rateLimited: bool)

  const HealthyBelow: nat := 5

  /** `get_health_status()`: the dictionary is built in order, so the
      count and health flag are read before `is_rate_limited` may reset the
      counter. */
  function GetHealthStatus(h: Handler, now: real): (r: (Handler, HealthStatus))
    ensures r.1.errorCount == h.errorCount
    ensures r.1.lastErrorTime == h.lastErrorTime
    ensures r.1.isHealthy <==> h.errorCount < HealthyBelow
    ensures (r.0, r.1.rateLimited) == IsRateLimited(h, now, DefaultMaxErrors, DefaultWindowSeconds)
  {
    var (h', limited) := IsRateLimited(h, now, DefaultMaxErrors, DefaultWindowSeconds);
    (h', HealthStatus(h.errorCount, h.lastErrorTime, h.errorCount < HealthyBelow, limited))
  }

  /** The report can call the handler unhealthy in the same call that
      resets its counter to zero. */
  lemma HealthReportPrecedesReset()
    ensures var (h', status) := GetHealthStatus(Handler(7, Some(0.0)), 100.0);
      && status.errorCount == 7 && !status.isHealthy && !status.rateLimited
      && h'.errorCount == 0
  {
  }

  /** `get_fallback(error_type, query)`: only the message, never with
      suggestions. */
  function GetFallback(h: Handler, now: real, errorType: string, query: Option<string>): (r: (Handler, string))
    ensures r.0 == GetFallbackResponse(h, now, errorType, query, false).0
    ensures r.0.errorCount == h.errorCount + 1
    ensures r.1 == ResponseText(errorType)
  {
    var (h', response) := GetFallbackResponse(h, now, errorType, query, false);
    (h', response.message)
  }

  // ---------------------------------------------------------------------
  // Runs of the handler
  // ---------------------------------------------------------------------

  /** A call on the shared handler. */
  datatype Call =
    | Respond(at: real, errorType: string, query: Option<string>, withSuggestions: bool)
    | CheckRate(at: real, maxErrors: int, windowSeconds: int)
    | CheckHealth(at: real)

  function Step(h: Handler, c: Call): Handler {
    match c
    case Respond(at, t, q, s) => GetFallbackResponse(h, at, t, q, s).0
    case CheckRate(at, m, w) => IsRateLimited(h, at, m, w).0
    case CheckHealth(at) => GetHealthStatus(h, at).0
  }

  function Run(h: Handler, calls: seq<Call>): Handler
    decreases |calls|
  {
    if |calls| == 0 then h else Run(Step(h, calls[0]), calls[1..])
  }

  function Responses(calls: seq<Call>): nat
    decreases |calls|
  {
    if |calls| == 0 then 0 else (if calls[0].Respond? then 1 else 0) + Responses(calls[1..])
  }

  /** The counter never exceeds the number of fallback responses given
      since it was last at `h.errorCount`. */
  lemma {:induction false} ErrorCountBoundedByResponses(h: Handler, calls: seq<Call>)
    ensures Run(h, calls).errorCount <= h.errorCount + Responses(calls)
    decreases |calls|
  {
    if |calls| > 0 {
      ErrorCountBoundedByResponses(Step(h, calls[0]), calls[1..]);
    }
  }

  /** Without rate or health checks, the counter counts every response. */
  lemma {:induction false} ErrorCountCountsResponses(h: Handler, calls: seq<Call>)
    requires forall i :: 0 <= i < |calls| ==> calls[i].Respond?
    ensures Run(h, calls).errorCount == h.errorCount + |calls|
    decreases |calls|
  {
    if |calls| > 0 {
      ErrorCountCountsResponses(Step(h, calls[0]), calls[1..]);
    }
  }

  /** A fresh handler reports a rate limit only after at least `maxErrors`
      fallback responses. */
  lemma RateLimitNeedsEnoughErrors(calls: seq<Call>, now: real, maxErrors: int, windowSeconds: int)
    requires IsRateLimited(Run(InitialHandler, calls), now, maxErrors, windowSeconds).1
    ensures Responses(calls) >= maxErrors
  {
    ErrorCountBoundedByResponses(InitialHandler, calls);
  }
}

=== FILE: indicators.dfy ===
/** The indicator formulas of the analytics agent (`calculate_rsi`,
    `calculate_moving_averages`, `calculate_bollinger_bands` and
    `calculate_beta`) over a series of closing prices.

    A pandas series is a `seq<Option<real>>` of the same length as the
    prices: `None` is a NaN, which is what pandas produces before a rolling
    window is full. Prices are exact reals; float rounding is not modelled.
    The rolling standard deviation needs a square root and is an input. */
module Indicators {
  import opened Wrappers

  // ---------------------------------------------------------------------
  // Sums and means
  // ---------------------------------------------------------------------

  /** Sum of a series, accumulated from the front. */
  function Sum(xs: seq<real>): real {
    if |xs| == 0 then 0.0 else Sum(xs[..|xs| - 1]) + xs[|xs| - 1]
  }

  function Mean(xs: seq<real>): real
    requires |xs| > 0
  {
    Sum(xs) / (|xs| as real)
  }

  predicate AllNonNegative(xs: seq<real>) {
    forall i :: 0 <= i < |xs| ==> xs[i] >= 0.0
  }

  lemma {:induction false} SumNonNegative(xs: seq<real>)
    requires AllNonNegative(xs)
    ensures Sum(xs) >= 0.0
  {
    if |xs| > 0 {
      SumNonNegative(xs[..|xs| - 1]);
    }
  }

  /** A sum of non-negative values is zero only when every value is. */
  lemma {:induction false} SumZeroOnlyIfAllZero(xs: seq<real>)
    requires AllNonNegative(xs)
    requires Sum(xs) == 0.0
    ensures forall i :: 0 <= i < |xs| ==> xs[i] == 0.0
  {
    if |xs| > 0 {
      SumNonNegative(xs[..|xs| - 1]);
      SumZeroOnlyIfAllZero(xs[..|xs| - 1]);
      assert forall i :: 0 <= i < |xs| - 1 ==> xs[i] == xs[..|xs| - 1][i];
    }
  }

  lemma MeanNonNegative(xs: seq<real>)
    requires |xs| > 0
    requires AllNonNegative(xs)
    ensures Mean(xs) >= 0.0
  {
    SumNonNegative(xs);
  }

  /** Dropping the first element of a window subtracts it from the sum. */
  lemma {:induction false} SumDropFirst(xs: seq<real>)
    requires |xs| > 0
    ensures Sum(xs[1..]) == Sum(xs) - xs[0]
    decreases |xs|
  {
    if |xs| > 1 {
      assert xs[1..][..|xs[1..]| - 1] == xs[..|xs| - 1][1..];
      SumDropFirst(xs[..|xs| - 1]);
    } else {
      assert xs[1..] == [];
    }
  }

  /** Appending the next element of `xs` to the window `xs[a..b]`. */
  lemma SumExtend(xs: seq<real>, a: nat, b: nat)
    requires a <= b < |xs|
    ensures Sum(xs[a..b + 1]) == Sum(xs[a..b]) + xs[b]
  {
    assert xs[a..b + 1][..b - a] == xs[a..b];
  }

  // ---------------------------------------------------------------------
  // Rolling mean (`series.rolling(window=w).mean()`)
  // ---------------------------------------------------------------------

  /** The rolling mean at index `i`: the mean of the `w` points ending at
      `i`, or NaN while fewer than `w` points exist. */
  function MeanAt(xs: seq<real>, w: nat, i: nat): Option<real>
    requires 1 <= w && i < |xs|
  {
    if i + 1 >= w then Some(Mean(xs[i + 1 - w..i + 1])) else None
  }

  function RollingMean(xs: seq<real>, w: nat): seq<Option<real>>
    requires 1 <= w
  {
    seq(|xs|, i requires 0 <= i < |xs| => MeanAt(xs, w, i))
  }

  /** The rolling mean computed the way pandas does it: one pass keeping a
      running window sum, adding the newest point and dropping the oldest.
      It agrees point by point with the windowed definition. */
  method RollingMeanSeries(xs: seq<real>, w: nat) returns (r: seq<Option<real>>)
    requires 1 <= w
    ensures |r| == |xs|
    ensures forall i :: 0 <= i < |xs| ==> (r[i].Some? <==> i + 1 >= w)
    ensures forall i :: 0 <= i < |xs| && i + 1 >= w ==> r[i] == Some(Mean(xs[i + 1 - w..i + 1]))
  {
    r := [];
    var total := 0.0;
    var i := 0;
    while i < |xs|
      invariant 0 <= i <= |xs|
      invariant |r| == i
      invariant forall j :: 0 <= j < i ==> r[j] == MeanAt(xs, w, j)
      invariant total == Sum(xs[WindowStart(i, w)..i])
    {
      WindowSlide(xs, w, i);
      total := total + xs[i] - (if i >= w then xs[i - w] else 0.0);
      var mean := if i + 1 >= w then Some(total / (w as real)) else None;
      WindowMean(xs, w, i, total);
      r := r + [mean];
      i := i + 1;
    }
  }

  /** Where the window of at most `w` points before index `i` starts. */
  function WindowStart(i: nat, w: nat): nat {
    if i >= w then i - w else 0
  }

  /** The running sum of a full window divided by its width is the
      window's mean. */
  lemma WindowMean(xs: seq<real>, w: nat, i: nat, total: real)
    requires 1 <= w && i < |xs|
    requires total == Sum(xs[WindowStart(i + 1, w)..i + 1])
    ensures MeanAt(xs, w, i) == if i + 1 >= w then Some(total / (w as real)) else None
  {
    if i + 1 >= w {
      assert WindowStart(i + 1, w) == i + 1 - w;
      assert |xs[i + 1 - w..i + 1]| == w;
    }
  }

  /** Sliding the window one point: add the newest point and, once the
      window is full, drop the oldest. */
  lemma WindowSlide(xs: seq<real>, w: nat, i: nat)
    requires 1 <= w && i < |xs|
    ensures Sum(xs[WindowStart(i + 1, w)..i + 1])
         == Sum(xs[WindowStart(i, w)..i]) + xs[i] - (if i >= w then xs[i - w] else 0.0)
  {
    var start := WindowStart(i, w);
    SumExtend(xs, start, i);
    if i + 1 > w {
      SumDropFirst(xs[start..i + 1]);
      assert xs[start..i + 1][1..] == xs[start + 1..i + 1];
    }
  }

  // ---------------------------------------------------------------------
  // Moving averages (`calculate_moving_averages`, short 20 / long 50)
  // ---------------------------------------------------------------------

  const ShortWindow: nat := 20
  const LongWindow: nat := 50

  datatype MovingAverages = MovingAverages(short: seq<Option<real>>, long: seq<Option<real>>)

  function CalculateMovingAverages(prices: seq<real>, short: nat, long: nat): (m: MovingAverages)
    requires 1 <= short && 1 <= long
    ensures |m.short| == |prices| && |m.long| == |prices|
    ensures forall i :: 0 <= i < |prices| ==> (m.short[i].Some? <==> i + 1 >= short)
    ensures forall i :: 0 <= i < |prices| ==> (m.long[i].Some? <==> i + 1 >= long)
    // each defined value is the mean of the window ending at its bar
    ensures forall i :: 0 <= i < |prices| && i + 1 >= short ==> m.short[i] == Some(Mean(prices[i + 1 - short..i + 1]))
    ensures forall i :: 0 <= i < |prices| && i + 1 >= long ==> m.long[i] == Some(Mean(prices[i + 1 - long..i + 1]))
  {
    MovingAverages(RollingMean(prices, short), RollingMean(prices, long))
  }

  // ---------------------------------------------------------------------
  // RSI (`calculate_rsi`, period 14)
  // ---------------------------------------------------------------------

  const RsiPeriod: nat := 14

  /** `delta.where(delta > 0, 0)`: the leading NaN of `diff()` fails the
      test and becomes 0, so the series starts with a 0. */
  function Gains(p: seq<real>): (g: seq<real>)
    ensures |g| == |p|
    ensures |p| > 0 ==> g[0] == 0.0
    ensures AllNonNegative(g)
    ensures forall i :: 1 <= i < |p| ==> (g[i] > 0.0 <==> p[i] > p[i - 1])
  {
    seq(|p|, i requires 0 <= i < |p| =>
      if i == 0 then 0.0
      else var d := p[i] - p[i - 1]; if d > 0.0 then d else 0.0)
  }

  /** `-delta.where(delta < 0, 0)` */
  function Losses(p: seq<real>): (l: seq<real>)
    ensures |l| == |p|
    ensures |p| > 0 ==> l[0] == 0.0
    ensures AllNonNegative(l)
    ensures forall i :: 1 <= i < |p| ==> (l[i] > 0.0 <==> p[i] < p[i - 1])
  {
    seq(|p|, i requires 0 <= i < |p| =>
      if i == 0 then 0.0
      else var d := p[i] - p[i - 1]; if d < 0.0 then -d else 0.0)
  }

  /** Each price change is split exactly into its gain and its loss part. */
  lemma GainsMinusLossesIsChange(p: seq<real>, i: nat)
    requires 1 <= i < |p|
    ensures Gains(p)[i] - Losses(p)[i] == p[i] - p[i - 1]
    ensures Gains(p)[i] == 0.0 || Losses(p)[i] == 0.0
  {
  }

  /** `v` is the percentage that `gain` makes up of `gain + loss`. */
  predicate IsGainShare(v: real, gain: real, loss: real) {
    v * (gain + loss) == 100.0 * gain
  }

  /** `100 - 100 / (1 + gain / loss)` with IEEE semantics for a zero
      average loss: a positive average gain gives `rs = inf` and an RSI of
      exactly 100, a zero average gain gives `0/0`, a NaN. */
  function RsiFromAverages(avgGain: real, avgLoss: real): (r: Option<real>)
    requires avgGain >= 0.0 && avgLoss >= 0.0
    ensures r.None? <==> avgGain == 0.0 && avgLoss == 0.0
    ensures r.Some? ==> 0.0 <= r.value <= 100.0
    ensures r.Some? && avgLoss > 0.0 ==> r.value < 100.0
    ensures r.Some? ==> IsGainShare(r.value, avgGain, avgLoss)
  {
    if avgLoss == 0.0 then
      (if avgGain > 0.0 then Some(100.0) else None)
    else
      var rs := avgGain / avgLoss;
      assert rs >= 0.0;
      RsiShareOfGains(avgGain, avgLoss, rs);
      Some(100.0 - 100.0 / (1.0 + rs))
  }

  /** The RSI formula equals the share of gains in the total movement:
      `100 - 100/(1 + g/l) == 100 g / (g + l)`. */
  lemma RsiShareOfGains(g: real, l: real, rs: real)
    requires g >= 0.0 && l > 0.0 && rs == g / l
    ensures 0.0 <= 100.0 - 100.0 / (1.0 + rs) < 100.0
    ensures (100.0 - 100.0 / (1.0 + rs)) * (g + l) == 100.0 * g
  {
    assert g == rs * l;
    assert 1.0 + rs >= 1.0;
    var q := 100.0 / (1.0 + rs);
    assert q * (1.0 + rs) == 100.0;
    assert 0.0 < q <= 100.0;
    assert g + l == (1.0 + rs) * l;
    calc {
      (100.0 - q) * (g + l);
      (100.0 - q) * ((1.0 + rs) * l);
      100.0 * (1.0 + rs) * l - q * (1.0 + rs) * l;
      100.0 * (1.0 + rs) * l - 100.0 * l;
      100.0 * (rs * l);
    }
  }

  /** The average gain over the `period` bars ending at bar `i`. */
  function AvgGain(p: seq<real>, period: nat, i: nat): (g: real)
    requires 1 <= period <= i + 1 <= |p|
    ensures g >= 0.0
  {
    MeanNonNegative(Gains(p)[i + 1 - period..i + 1]);
    Mean(Gains(p)[i + 1 - period..i + 1])
  }

  /** The average loss over the `period` bars ending at bar `i`. */
  function AvgLoss(p: seq<real>, period: nat, i: nat): (l: real)
    requires 1 <= period <= i + 1 <= |p|
    ensures l >= 0.0
  {
    MeanNonNegative(Losses(p)[i + 1 - period..i + 1]);
    Mean(Losses(p)[i + 1 - period..i + 1])
  }

  /** The RSI at index `i`: NaN until the window is full (both rolling
      averages are NaN before), then the share of the average gain in the
      total average movement. */
  function RsiAt(p: seq<real>, period: nat, i: nat): (r: Option<real>)
    requires 1 <= period && i < |p|
    ensures i + 1 < period ==> r.None?
    ensures r.Some? ==> 0.0 <= r.value <= 100.0
    ensures i + 1 >= period ==> (r.None? <==> AvgGain(p, period, i) == 0.0 && AvgLoss(p, period, i) == 0.0)
    ensures i + 1 >= period && r.Some? ==> IsGainShare(r.value, AvgGain(p, period, i), AvgLoss(p, period, i))
  {
    if i + 1 < period then None
    else
      var g, l := AvgGain(p, period, i), AvgLoss(p, period, i);
      RsiFromAverages(g, l)
  }

  /** `calculate_rsi(prices, period)` */
  function CalculateRsi(p: seq<real>, period: nat): (r: seq<Option<real>>)
    requires 1 <= period
    ensures |r| == |p|
    ensures forall i :: 0 <= i < |p| && r[i].Some? ==> 0.0 <= r[i].value <= 100.0
    ensures forall i :: 0 <= i < |p| && i + 1 < period ==> r[i].None?
    ensures forall i :: 0 <= i < |p| && i + 1 >= period ==>
      (r[i].None? <==> AvgGain(p, period, i) == 0.0 && AvgLoss(p, period, i) == 0.0)
    ensures forall i :: 0 <= i < |p| && i + 1 >= period && r[i].Some? ==>
      IsGainShare(r[i].value, AvgGain(p, period, i), AvgLoss(p, period, i))
  {
    var r := seq(|p|, i requires 0 <= i < |p| => RsiAt(p, period, i));
    assert forall i :: 0 <= i < |p| ==> r[i] == RsiAt(p, period, i);
    r
  }

  lemma {:induction false} AllZeroSum(xs: seq<real>)
    requires forall i :: 0 <= i < |xs| ==> xs[i] == 0.0
    ensures Sum(xs) == 0.0
  {
    if |xs| > 0 {
      AllZeroSum(xs[..|xs| - 1]);
    }
  }

  /** The mean of non-negative values is zero exactly when all are zero. */
  lemma MeanZeroIff(xs: seq<real>)
    requires |xs| > 0 && AllNonNegative(xs)
    ensures Mean(xs) == 0.0 <==> forall k :: 0 <= k < |xs| ==> xs[k] == 0.0
  {
    SumNonNegative(xs);
    if Mean(xs) == 0.0 {
      assert Sum(xs) == 0.0;
      SumZeroOnlyIfAllZero(xs);
    }
    if forall k :: 0 <= k < |xs| ==> xs[k] == 0.0 {
      AllZeroSum(xs);
    }
  }

  /** Over a window of the gain and loss series, both are zero exactly where
      the price did not move. */
  lemma FlatWindow(p: seq<real>, lo: nat, hi: nat)
    requires lo <= hi <= |p|
    ensures (&& (forall k :: 0 <= k < hi - lo ==> Gains(p)[lo..hi][k] == 0.0)
             && (forall k :: 0 <= k < hi - lo ==> Losses(p)[lo..hi][k] == 0.0))
        <==> (forall j :: lo <= j < hi && j >= 1 ==> p[j] == p[j - 1])
  {
    var g, l := Gains(p), Losses(p);
    if forall j :: lo <= j < hi && j >= 1 ==> p[j] == p[j - 1] {
      forall k | 0 <= k < hi - lo
        ensures g[lo..hi][k] == 0.0 && l[lo..hi][k] == 0.0
      {
        assert g[lo..hi][k] == g[lo + k] && l[lo..hi][k] == l[lo + k];
      }
    }
    if (forall k :: 0 <= k < hi - lo ==> g[lo..hi][k] == 0.0) && (forall k :: 0 <= k < hi - lo ==> l[lo..hi][k] == 0.0) {
      forall j | lo <= j < hi && j >= 1
        ensures p[j] == p[j - 1]
      {
        assert g[lo..hi][j - lo] == g[j] && l[lo..hi][j - lo] == l[j];
      }
    }
  }

  /** The RSI is undefined exactly when the window is not yet full or the
      price did not move at all over it. Because of pandas' leading zero
      gain, the window ending at `i` covers the changes into bars
      `i + 1 - period .. i`, so `period` prices already give a value. */
  lemma RsiUndefinedIff(p: seq<real>, period: nat, i: nat)
    requires 1 <= period && i < |p|
    ensures RsiAt(p, period, i).None? <==>
      i + 1 < period ||
      forall j :: i + 1 - period <= j <= i && j >= 1 ==> p[j] == p[j - 1]
  {
    if i + 1 >= period {
      RsiUndefinedOnFlatAverages(p, period, i);
      FlatAverages(p, i + 1 - period, i + 1);
    }
  }

  /** Over a non-empty window, average gain and average loss are both zero
      exactly when the price did not move. */
  lemma FlatAverages(p: seq<real>, lo: nat, hi: nat)
    requires lo < hi <= |p|
    ensures Mean(Gains(p)[lo..hi]) == 0.0 && Mean(Losses(p)[lo..hi]) == 0.0
        <==> (forall j :: lo <= j < hi && j >= 1 ==> p[j] == p[j - 1])
  {
    var gw := Gains(p)[lo..hi];
    var lw := Losses(p)[lo..hi];
    assert |gw| == hi - lo && |lw| == hi - lo;
    MeanZeroIff(gw);
    MeanZeroIff(lw);
    FlatWindow(p, lo, hi);
  }

  /** Once the window is full, the RSI is undefined exactly when both
      average gain and average loss are zero. */
  lemma RsiUndefinedOnFlatAverages(p: seq<real>, period: nat, i: nat)
    requires 1 <= period && period <= i + 1 < |p| + 1
    ensures RsiAt(p, period, i).None? <==>
      Mean(Gains(p)[i + 1 - period..i + 1]) == 0.0 && Mean(Losses(p)[i + 1 - period..i + 1]) == 0.0
  {
    var gw := Gains(p)[i + 1 - period..i + 1];
    var lw := Losses(p)[i + 1 - period..i + 1];
    MeanNonNegative(gw);
    MeanNonNegative(lw);
    assert RsiAt(p, period, i) == RsiFromAverages(Mean(gw), Mean(lw));
  }

  // ---------------------------------------------------------------------
  // Bollinger bands (`calculate_bollinger_bands`, period 20, 2 std)
  // ---------------------------------------------------------------------

  const BandPeriod: nat := 20
  const BandWidth: real := 2.0

  datatype Band = Band(middle: real, upper: real, lower: real)

  /** The bands at index `i`, given the rolling standard deviation `std`
      at that index. Undefined until the window is full. */
  function BandAt(prices: seq<real>, period: nat, i: nat, std: real, mult: real): (b: Option<Band>)
    requires 1 <= period && i < |prices|
    ensures b.Some? <==> i + 1 >= period
    ensures b.Some? ==> b.value.middle == Mean(prices[i + 1 - period..i + 1])
    ensures b.Some? ==> b.value.upper == b.value.middle + std * mult
    ensures b.Some? ==> b.value.lower == b.value.middle - std * mult
    ensures b.Some? ==> b.value.upper - b.value.middle == b.value.middle - b.value.lower
    ensures b.Some? && std >= 0.0 && mult >= 0.0 ==> b.value.lower <= b.value.middle <= b.value.upper
  {
    match MeanAt(prices, period, i)
    case Some(m) => Some(Band(m, m + std * mult, m - std * mult))
    case None => None
  }

  /** `calculate_bollinger_bands(prices, period, mult)` with the rolling
      standard deviation supplied point by point. */
  function CalculateBollingerBands(prices: seq<real>, period: nat, std: seq<real>, mult: real): (bands: seq<Option<Band>>)
    requires 1 <= period && |std| == |prices|
    ensures |bands| == |prices|
    ensures forall i :: 0 <= i < |prices| ==> (bands[i].Some? <==> i + 1 >= period)
    ensures forall i :: 0 <= i < |prices| && bands[i].Some? ==>
      && bands[i].value.middle == Mean(prices[i + 1 - period..i + 1])
      && bands[i].value.upper == bands[i].value.middle + std[i] * mult
      && bands[i].value.lower == bands[i].value.middle - std[i] * mult
    ensures forall i :: 0 <= i < |prices| && bands[i].Some? && std[i] >= 0.0 && mult >= 0.0 ==>
      bands[i].value.lower <= bands[i].value.middle <= bands[i].value.upper
  {
    seq(|prices|, i requires 0 <= i < |prices| => BandAt(prices, period, i, std[i], mult))
  }

  // ---------------------------------------------------------------------
  // Beta (`calculate_beta`)
  // ---------------------------------------------------------------------

  /** Fewer aligned return pairs than this give the default beta. */
  const MinBetaPairs: nat := 10
  const DefaultBeta: real := 1.0

  /** Aligned (stock return, market return) pairs. */
  type ReturnPairs = seq<(real, real)>

  function StockReturns(pairs: ReturnPairs): (xs: seq<real>)
    ensures |xs| == |pairs|
  {
    seq(|pairs|, i requires 0 <= i < |pairs| => pairs[i].0)
  }

  function MarketReturns(pairs: ReturnPairs): (ys: seq<real>)
    ensures |ys| == |pairs|
  {
    seq(|pairs|, i requires 0 <= i < |pairs| => pairs[i].1)
  }

  /** Sum of `(x - mx) * (y - my)` over paired values. */
  function CoDeviation(xs: seq<real>, ys: seq<real>, mx: real, my: real): real
    requires |xs| == |ys|
  {
    if |xs| == 0 then 0.0
    else (xs[0] - mx) * (ys[0] - my) + CoDeviation(xs[1..], ys[1..], mx, my)
  }

  /** pandas `Series.cov` (divisor n - 1). */
  function Covariance(xs: seq<real>, ys: seq<real>): real
    requires |xs| == |ys| >= 2
  {
    CoDeviation(xs, ys, Mean(xs), Mean(ys)) / ((|xs| - 1) as real)
  }

  /** pandas `Series.var` (divisor n - 1). */
  function Variance(ys: seq<real>): real
    requires |ys| >= 2
  {
    Covariance(ys, ys)
  }

  lemma {:induction false} SquaredDeviationNonNegative(ys: seq<real>, m: real)
    ensures CoDeviation(ys, ys, m, m) >= 0.0
  {
    if |ys| > 0 {
      SquaredDeviationNonNegative(ys[1..], m);
      SquareNonNegative(ys[0] - m);
    }
  }

  lemma SquareNonNegative(d: real)
    ensures d * d >= 0.0
  {
    if d < 0.0 {
      assert d * d == (-d) * (-d);
    }
  }

  lemma VarianceNonNegative(ys: seq<real>)
    requires |ys| >= 2
    ensures Variance(ys) >= 0.0
  {
    SquaredDeviationNonNegative(ys, Mean(ys));
  }

  /** `calculate_beta` on already aligned returns (before the final
      rounding to two decimals). */
  function Beta(pairs: ReturnPairs): (b: real)
    ensures |pairs| < MinBetaPairs ==> b == DefaultBeta
    ensures |pairs| >= MinBetaPairs && Variance(MarketReturns(pairs)) == 0.0 ==> b == DefaultBeta
  {
    if |pairs| < MinBetaPairs then DefaultBeta
    else
      var market := MarketReturns(pairs);
      var variance := Variance(market);
      if variance == 0.0 then DefaultBeta
      else Covariance(StockReturns(pairs), market) / variance
  }

  /** A stock that moves exactly with the market has beta 1. */
  lemma BetaOfMarketIsOne(pairs: ReturnPairs)
    requires forall i :: 0 <= i < |pairs| ==> pairs[i].0 == pairs[i].1
    ensures Beta(pairs) == 1.0
  {
    var xs, ys := StockReturns(pairs), MarketReturns(pairs);
    assert xs == ys;
    if |pairs| >= MinBetaPairs && Variance(ys) != 0.0 {
      assert Covariance(xs, ys) == Variance(ys);
      assert Beta(pairs) == Covariance(xs, ys) / Variance(ys);
    }
  }

  /** Once beta is computed (enough data, a market that moves), it has the
      sign of the covariance: the stock is rated as moving with the market
      exactly when it co-varies positively with it. */
  lemma BetaSignFollowsCovariance(pairs: ReturnPairs)
    requires |pairs| >= MinBetaPairs && Variance(MarketReturns(pairs)) != 0.0
    ensures Beta(pairs) > 0.0 <==> Covariance(StockReturns(pairs), MarketReturns(pairs)) > 0.0
    ensures Beta(pairs) < 0.0 <==> Covariance(StockReturns(pairs), MarketReturns(pairs)) < 0.0
  {
    var v := Variance(MarketReturns(pairs));
    VarianceNonNegative(MarketReturns(pairs));
    assert v > 0.0;
    QuotientSign(Covariance(StockReturns(pairs), MarketReturns(pairs)), v);
  }

  lemma QuotientSign(c: real, v: real)
    requires v > 0.0
    ensures c / v > 0.0 <==> c > 0.0
    ensures c / v < 0.0 <==> c < 0.0
  {
    assert (c / v) * v == c;
  }
}

=== FILE: market_data.dfy ===
/** The market-data agent's symbol resolution, its assembly of a quote
    from what the price provider returned, and the text block it hands to
    the language model.

    The provider (Yahoo Finance) is a parameter: a function from ticker to
    what the provider yields for it. Rounding to two decimals, logging and
    the clock are left out; the timestamp text is a parameter. */
module MarketData {
  import opened Wrappers
  import opened PyText
  import Summary

  /** Common names and tickers, lower-case, mapped to provider tickers. */
  const SymbolMap: map<string, string> := map[
    // Indian Stocks (NSE) - Requires .NS suffix
    "infosys" := "INFY.NS",
    "infy" := "INFY.NS",
    "tcs" := "TCS.NS",
    "tata consultancy" := "TCS.NS",
    "tata consultancy services" := "TCS.NS",
    "reliance" := "RELIANCE.NS",
    "reliance industries" := "RELIANCE.NS",
    "wipro" := "WIPRO.NS",
    "hcl" := "HCLTECH.NS",
    "hcl tech" := "HCLTECH.NS",
    "hdfc bank" := "HDFCBANK.NS",
    "hdfc" := "HDFCBANK.NS",
    "icici bank" := "ICICIBANK.NS",
    "icici" := "ICICIBANK.NS",
    "sbi" := "SBIN.NS",
    "state bank" := "SBIN.NS",
    "bharti airtel" := "BHARTIARTL.NS",
    "airtel" := "BHARTIARTL.NS",
    "kotak" := "KOTAKBANK.NS",
    "kotak mahindra" := "KOTAKBANK.NS",
    "axis bank" := "AXISBANK.NS",
    "axis" := "AXISBANK.NS",
    "maruti" := "MARUTI.NS",
    "maruti suzuki" := "MARUTI.NS",
    "tata motors" := "TATAMOTORS.NS",
    "tata steel" := "TATASTEEL.NS",
    "itc" := "ITC.NS",
    "asian paints" := "ASIANPAINT.NS",
    "bajaj finance" := "BAJFINANCE.NS",
    "larsen" := "LT.NS",
    "l&t" := "LT.NS",
    "sun pharma" := "SUNPHARMA.NS",
    "hindalco" := "HINDALCO.NS",
    "tech mahindra" := "TECHM.NS",
    "power grid" := "POWERGRID.NS",
    "ntpc" := "NTPC.NS",
    "ongc" := "ONGC.NS",
    "ultratech" := "ULTRACEMCO.NS",
    // Indian Indices
    "nifty" := "^NSEI",
    "nifty50" := "^NSEI",
    "nifty 50" := "^NSEI",
    "sensex" := "^BSESN",
    "bse sensex" := "^BSESN",
    "bank nifty" := "^NSEBANK",
    "nifty bank" := "^NSEBANK",
    // US Stocks
    "apple" := "AAPL",
    "aapl" := "AAPL",
    "microsoft" := "MSFT",
    "msft" := "MSFT",
    "google" := "GOOGL",
    "alphabet" := "GOOGL",
    "googl" := "GOOGL",
    "amazon" := "AMZN",
    "amzn" := "AMZN",
    "tesla" := "TSLA",
    "tsla" := "TSLA",
    "nvidia" := "NVDA",
    "nvda" := "NVDA",
    "meta" := "META",
    "facebook" := "META",
    "netflix" := "NFLX",
    "nflx" := "NFLX",
    "intel" := "INTC",
    "intc" := "INTC",
    "amd" := "AMD",
    "tsmc" := "TSM",
    "tsm" := "TSM",
    "qualcomm" := "QCOM",
    "qcom" := "QCOM",
    "broadcom" := "AVGO",
    "avgo" := "AVGO",
    "adobe" := "ADBE",
    "salesforce" := "CRM",
    "cisco" := "CSCO",
    "oracle" := "ORCL",
    "ibm" := "IBM",
    "paypal" := "PYPL",
    "uber" := "UBER",
    "zoom" := "ZM",
    "spotify" := "SPOT",
    // US Indices
    "dow" := "^DJI",
    "dow jones" := "^DJI",
    "s&p" := "^GSPC",
    "s&p 500" := "^GSPC",
    "sp500" := "^GSPC",
    "nasdaq" := "^IXIC",
    "nasdaq composite" := "^IXIC",
    "russell" := "^RUT",
    "russell 2000" := "^RUT",
    // Other Global
    "samsung" := "005930.KS"
  ]

  /** The lookup key: `query.lower().strip()`. */
  function Key(query: string): string {
    Strip(Lower(query))
  }

  /** A ticker the query already looks like: `query.isupper() and len(query) >= 2`. */
  predicate LooksLikeTicker(query: string) {
    IsUpper(query) && |query| >= 2
  }

  /** `resolve_symbol(query)`, including its third test, which repeats the
      second and so can never be reached. */
  function ResolveSymbol(query: string): (r: Option<string>)
    ensures r.Some? ==> r.value in SymbolMap.Values || r.value == query
    ensures Key(query) in SymbolMap ==> r == Some(SymbolMap[Key(query)])
    ensures Key(query) !in SymbolMap ==> (r.Some? <==> LooksLikeTicker(query))
    ensures Key(query) !in SymbolMap && r.Some? ==> r.value == query
  {
    var key := Key(query);
    if key in SymbolMap then Some(SymbolMap[key])
    else if LooksLikeTicker(query) then Some(query)
    else if LooksLikeTicker(query) then Some(query + ".NS")
    else None
  }

  /** The `.NS` suffix is never appended: a result ending in `.NS` that is
      not the query itself comes from the table. */
  lemma NsSuffixOnlyFromTable(query: string)
    ensures ResolveSymbol(query) != Some(query + ".NS") || Key(query) in SymbolMap
  {
  }

  /** Looking a name up ignores surrounding whitespace and letter case. */
  lemma LookupIgnoresPaddingAndCase(a: string, query: string, b: string)
    requires AllSpace(a) && AllSpace(b)
    requires Key(query) in SymbolMap
    ensures ResolveSymbol(a + query + b) == ResolveSymbol(query)
    ensures ResolveSymbol(Upper(query)) == ResolveSymbol(query)
  {
    LowerConcat(a + query, b);
    LowerConcat(a, query);
    LowerOfSpace(a);
    LowerOfSpace(b);
    StripIgnoresPadding(a, Lower(query), b);
    LowerOfUpper(query);
  }

  /** A padded, upper-case common name is found in the table. */
  lemma ResolvePaddedName()
    ensures ResolveSymbol("  TSMC ") == Some("TSM")
  {
    assert Key("  TSMC ") == "tsmc" by {
      assert Lower("  TSMC ") == "  tsmc ";
      StripIgnoresPadding("  ", "tsmc", " ");
      assert "  " + "tsmc" + " " == "  tsmc ";
    }
  }

  /** A name missing from the table that has no upper-case letter resolves
      to nothing, however long it is. */
  lemma UnknownLowerCaseNameUnresolved(query: string)
    requires Key(query) !in SymbolMap
    requires forall i :: 0 <= i < |query| ==> !IsUpperChar(query[i])
    ensures ResolveSymbol(query) == None
  {
  }

  // ---------------------------------------------------------------------
  // Quotes
  // ---------------------------------------------------------------------

  /** The provider's `info` dictionary: `None` for a missing key. An empty
      dictionary is the one with every field `None`. */
  datatype Info = Info(
    regularMarketPrice: Option<real>,
    currency: Option<string>,
    exchange: Option<string>,
    marketState: Option<string>,
    previousClose: Option<real>,
    shortName: Option<string>,
    longName: Option<string>)

  /** What the provider yields for a ticker: its `info` and the closes of
      the last day's history, or the text of the exception it raised. */
  datatype Quote =
    | Quote(info: Info, dayCloses: seq<real>)
    | QuoteFailed(error: string)

  datatype PriceData =
    | PriceSuccess(
        symbol: string,
        name: string,
        price: real,
        currency: string,
        exchange: string,
        previousClose: Option<real>,
        dayChange: real,
        dayChangePercent: real,
        marketState: string,
        timestamp: string)
    | PriceUnavailable(message: string, triedSymbol: Option<string>, error: Option<string>)

  const DefaultCurrency: string := "USD"
  const UnknownField: string := "Unknown"

  function UnavailableMessage(query: string): string {
    "Market data for " + query + " is currently unavailable."
  }

  /** The ticker `get_realtime_price` asks for: the resolved symbol, or the
      query upper-cased when it does not resolve. */
  function TickerFor(query: string): (t: string)
    ensures ResolveSymbol(query).Some? ==> t == ResolveSymbol(query).value
    ensures ResolveSymbol(query).None? ==> t == Upper(query) && !LooksLikeTicker(query)
  {
    match ResolveSymbol(query)
    case Some(s) => s
    case None => Upper(query)
  }

  /** `get_realtime_price(query)` on the provider `fetch`, before rounding. */
  function RealtimePrice(query: string, fetch: string -> Quote, timestamp: string): (r: PriceData)
    ensures var q := fetch(TickerFor(query));
      && (r.PriceUnavailable? ==> r.message == UnavailableMessage(query))
      && (q.QuoteFailed? ==> r == PriceUnavailable(UnavailableMessage(query), None, Some(q.error)))
      && (r.PriceUnavailable? && q.Quote? <==>
            q.Quote? && q.info.regularMarketPrice.None? && |q.dayCloses| == 0)
      && (r.PriceUnavailable? && q.Quote? ==> r.triedSymbol == Some(TickerFor(query)) && r.error.None?)
    ensures r.PriceSuccess? ==>
      var info := fetch(TickerFor(query)).info;
      var closes := fetch(TickerFor(query)).dayCloses;
      var prev := info.previousClose.GetOr(0.0);
      && r.symbol == TickerFor(query)
      && r.timestamp == timestamp
      && r.price == (if info.regularMarketPrice.Some? then info.regularMarketPrice.value
                     else closes[|closes| - 1])
      && r.currency == info.currency.GetOr(DefaultCurrency)
      && r.exchange == info.exchange.GetOr(UnknownField)
      && r.marketState == info.marketState.GetOr(UnknownField)
      && r.name == info.shortName.GetOr(info.longName.GetOr(query))
      // a missing or zero previous close counts as no previous close
      && (r.previousClose.None? <==> prev == 0.0)
      && (r.previousClose.Some? ==> r.previousClose.value == prev)
      && (prev == 0.0 ==> r.dayChange == 0.0 && r.dayChangePercent == 0.0)
      && (prev != 0.0 ==> r.price == prev + r.dayChange)
      && (prev != 0.0 ==> Some(r.dayChangePercent) == Summary.PercentChange(r.price, prev))
  {
    var ticker := TickerFor(query);
    match fetch(ticker)
    case QuoteFailed(e) => PriceUnavailable(UnavailableMessage(query), None, Some(e))
    case Quote(info, closes) =>
      if info.regularMarketPrice.None? && |closes| == 0 then
        PriceUnavailable(UnavailableMessage(query), Some(ticker), None)
      else
        var price := if info.regularMarketPrice.Some? then info.regularMarketPrice.value
                     else closes[|closes| - 1];
        var prev := info.previousClose.GetOr(0.0);
        var change := if prev != 0.0 then price - prev else 0.0;
        var pct := if prev != 0.0 then change / prev * 100.0 else 0.0;
        PriceSuccess(
          ticker,
          info.shortName.GetOr(info.longName.GetOr(query)),
          price,
          info.currency.GetOr(DefaultCurrency),
          info.exchange.GetOr(UnknownField),
          if prev != 0.0 then Some(prev) else None,
          change,
          pct,
          info.marketState.GetOr(UnknownField),
          timestamp)
  }

  /** A quote with a positive previous close reports a rise exactly when
      the price is above it, in both the change and its percentage. */
  lemma DayChangeAgreesWithPercent(query: string, fetch: string -> Quote, timestamp: string)
    requires RealtimePrice(query, fetch, timestamp).PriceSuccess?
    requires fetch(TickerFor(query)).info.previousClose.GetOr(0.0) > 0.0
    ensures var r := RealtimePrice(query, fetch, timestamp);
      && r.previousClose.Some?
      && (r.dayChange > 0.0 <==> r.price > r.previousClose.value)
      && (r.dayChangePercent > 0.0 <==> r.dayChange > 0.0)
      && (r.dayChangePercent < 0.0 <==> r.dayChange < 0.0)
  {
    var r := RealtimePrice(query, fetch, timestamp);
    var prev := r.previousClose.value;
    assert Some(r.dayChangePercent) == Summary.PercentChange(r.price, prev);
  }

  // ---------------------------------------------------------------------
  // The text block for the language model
  // ---------------------------------------------------------------------

  const ReportHeader: string := "REAL-TIME MARKET DATA (from Yahoo Finance):"

  /** The prefix put before the day change and its percentage. */
  function ChangeSign(dayChange: real): (s: string)
    ensures s == "+" <==> dayChange >= 0.0
    ensures s == "" <==> dayChange < 0.0
  {
    if dayChange >= 0.0 then "+" else ""
  }

  /** How Python renders an optional number: `None` for a missing one. */
  function ShowOptional(x: Option<real>, show: real -> string): string {
    match x
    case Some(v) => show(v)
    case None => "None"
  }

  /** The lines of the report, between the leading and trailing newline. */
  function ReportLines(d: PriceData, show: real -> string): (ls: seq<string>)
    requires d.PriceSuccess?
    ensures |ls| == 8 && ls[0] == ReportHeader
  {
    var sign := ChangeSign(d.dayChange);
    [ ReportHeader,
      "- Stock: " + d.name + " (" + d.symbol + ")",
      "- Current Price: " + d.currency + " " + show(d.price),
      "- Day Change: " + sign + show(d.dayChange) + " (" + sign + show(d.dayChangePercent) + "%)",
      "- Previous Close: " + d.currency + " " + ShowOptional(d.previousClose, show),
      "- Exchange: " + d.exchange,
      "- Market State: " + d.marketState,
      "- Timestamp: " + d.timestamp ]
  }

  /** `format_price_response(data)`, where `show` is Python's `str` on a
      number. The success text is the report's lines, each ended by a
      newline, after one leading newline. */
  function FormatPriceResponse(d: PriceData, show: real -> string): (text: string)
    ensures d.PriceUnavailable? ==> text == d.message
    ensures d.PriceSuccess? ==> |text| > 0 && text[0] == '\n' && text[|text| - 1] == '\n'
  {
    match d
    case PriceUnavailable(message, _, _) => message
    case PriceSuccess(_, _, _, _, _, _, _, _, _, _) =>
      var lines := [""] + ReportLines(d, show) + [""];
      assert Join("\n", lines) == "" + "\n" + Join("\n", lines[1..]);
      JoinEndsWithLast("\n", lines);
      Join("\n", lines)
  }

  lemma {:induction false} JoinEndsWithLast(sep: string, pieces: seq<string>)
    requires |pieces| >= 2 && pieces[|pieces| - 1] == "" && |sep| == 1
    ensures var j := Join(sep, pieces); |j| > 0 && j[|j| - 1] == sep[0]
    decreases |pieces|
  {
    if |pieces| > 2 {
      JoinEndsWithLast(sep, pieces[1..]);
    }
  }

  /** Read back line by line, the report gives its header, the stock, the
      price, the signed day change, the previous close, the exchange, the
      market state and the timestamp, framed by empty first and last lines. */
  lemma FormatPriceResponseLines(d: PriceData, show: real -> string)
    requires d.PriceSuccess?
    requires forall k :: 0 <= k < 8 ==> Free(ReportLines(d, show)[k], '\n')
    ensures var lines := Split(FormatPriceResponse(d, show), '\n');
      && |lines| == 10
      && lines[0] == "" && lines[9] == "" && lines[1] == ReportHeader
      && lines[2] == "- Stock: " + d.name + " (" + d.symbol + ")"
      && lines[4] == "- Day Change: " + ChangeSign(d.dayChange) + show(d.dayChange)
                     + " (" + ChangeSign(d.dayChange) + show(d.dayChangePercent) + "%)"
      && lines[8] == "- Timestamp: " + d.timestamp
  {
    var lines := [""] + ReportLines(d, show) + [""];
    assert forall k :: 0 <= k < |lines| ==> Free(lines[k], '\n') by {
      forall k | 0 <= k < |lines|
        ensures Free(lines[k], '\n')
      {
        if 1 <= k <= 8 {
          assert lines[k] == ReportLines(d, show)[k - 1];
        }
      }
    }
    SplitJoin(lines, '\n');
  }
}

=== FILE: portfolio.dfy ===
/** Portfolio-level aggregation of the analytics agent:
    `analyze_risk_exposure` (region filter, averages, overall risk ladder)
    and `get_portfolio_analytics` (trend and RSI tallies, sentiment).

    Fetching is a parameter `fetch` giving the provider's data per symbol;
    the generation timestamp is left out. */
module Portfolio {
  import opened Wrappers
  import opened PyText
  import opened Seqs
  import opened Indicators
  import opened Signals
  import opened Summary

  // ---------------------------------------------------------------------
  // Region filter
  // ---------------------------------------------------------------------

  const AsiaTechStocks: seq<string> := ["TSM", "2330.TW", "SSNLF", "005930.KS", "BABA", "BIDU", "9988.HK"]
  const UsTechStocks: seq<string> := ["AAPL", "MSFT", "GOOGL", "META", "NVDA", "AMD", "INTC"]
  const EuropeStocks: seq<string> := ["ASML", "SAP", "SHOP"]

  /** The symbol analysed when no symbol is left at all. */
  const FallbackSymbol: string := "TSM"

  datatype Region = AsiaRegion | UsRegion | EuropeRegion {

    function Stocks(): seq<string> {
      match this
      case AsiaRegion => AsiaTechStocks
      case UsRegion => UsTechStocks
      case EuropeRegion => EuropeStocks
    }

    /** The symbol used when none of the requested ones is in the region. */
    function Default(): string {
      match this
      case AsiaRegion => "TSM"
      case UsRegion => "AAPL"
      case EuropeRegion => "ASML"
    }
  }

  /** A region filter is applied only when it is truthy (present and
      non-empty). */
  predicate Truthy(region: Option<string>) {
    region.Some? && region.value != ""
  }

  /** The region a free-text filter selects: substring tests on the
      lower-cased text, `asia` first, then `us` or `america`, then `europe`. */
  function RegionOf(region: Option<string>): (r: Option<Region>)
    ensures !Truthy(region) ==> r.None?
    ensures r == Some(AsiaRegion) <==> Truthy(region) && Contains(Lower(region.value), "asia")
    ensures r == Some(UsRegion) <==>
      Truthy(region) && !Contains(Lower(region.value), "asia") &&
      (Contains(Lower(region.value), "us") || Contains(Lower(region.value), "america"))
    ensures r == Some(EuropeRegion) <==>
      Truthy(region) && !Contains(Lower(region.value), "asia") &&
      !Contains(Lower(region.value), "us") && !Contains(Lower(region.value), "america") &&
      Contains(Lower(region.value), "europe")
  {
    if !Truthy(region) then None
    else
      var lower := Lower(region.value);
      if Contains(lower, "asia") then Some(AsiaRegion)
      else if Contains(lower, "us") || Contains(lower, "america") then Some(UsRegion)
      else if Contains(lower, "europe") then Some(EuropeRegion)
      else None
  }

  /** `s.upper() in [x.upper() for x in stocks]` */
  predicate Listed(stocks: seq<string>, s: string) {
    Upper(s) in Map(stocks, Upper)
  }

  /** The test of the comprehension for region `g`. */
  function InRegion(g: Region): string -> bool {
    s => Listed(g.Stocks(), s)
  }

  /** The region filter followed by the final empty-list fallback. */
  function RegionFilter(symbols: seq<string>, region: Option<string>): (r: seq<string>)
    ensures |r| > 0
    ensures RegionOf(region).None? ==> r == (if |symbols| == 0 then [FallbackSymbol] else symbols)
    ensures RegionOf(region).Some? ==>
      var g := RegionOf(region).value;
      && (forall i :: 0 <= i < |r| ==> Listed(g.Stocks(), r[i]))
      && (forall i :: 0 <= i < |symbols| && Listed(g.Stocks(), symbols[i]) ==> symbols[i] in r)
      // the listed symbols, in order and each as often as requested
      && (Count(symbols, InRegion(g)) > 0 ==> IsSubsequence(r, symbols) && |r| == Count(symbols, InRegion(g)))
      // or else the region's default alone
      && (Count(symbols, InRegion(g)) == 0 ==> r == [g.Default()])
  {
    var filtered :=
      match RegionOf(region)
      case None => symbols
      case Some(g) =>
        var kept := Filter(symbols, InRegion(g));
        if |kept| == 0 then
          DefaultIsListed(g);
          [g.Default()]
        else kept;
    if |filtered| == 0 then [FallbackSymbol] else filtered
  }

  lemma DefaultIsListed(g: Region)
    ensures Listed(g.Stocks(), g.Default())
  {
    assert Upper(g.Default()) == Map(g.Stocks(), Upper)[0];
  }

  lemma UpperFixesUpperCase(s: string)
    requires forall i :: 0 <= i < |s| ==> !IsLowerChar(s[i])
    ensures Upper(s) == s
  {
  }

  /** The region tables are already upper case, so membership is plain
      membership in the table. */
  lemma RegionListsAreUpperCase(g: Region)
    ensures Map(g.Stocks(), Upper) == g.Stocks()
  {
    var stocks := g.Stocks();
    forall i | 0 <= i < |stocks|
      ensures Upper(stocks[i]) == stocks[i]
    {
      var s := stocks[i];
      forall k | 0 <= k < |s|
        ensures !IsLowerChar(s[k])
      {
      }
      UpperFixesUpperCase(s);
    }
  }

  /** A US symbol under an Asia filter is replaced by the Asia default. */
  lemma AsiaFilterFallsBackToDefault()
    ensures RegionFilter(["MSFT"], Some("Asia")) == ["TSM"]
  {
    assert OccursAt(Lower("Asia"), "asia", 0);
    RegionListsAreUpperCase(AsiaRegion);
    UpperFixesUpperCase("MSFT");
  }

  /** The `us` test is a substring test, so "Australia" selects the US list. */
  lemma AustraliaMatchesUs()
    ensures RegionOf(Some("Australia")) == Some(UsRegion)
  {
    var lower := Lower("Australia");
    assert lower == "australia";
    assert OccursAt(lower, "us", 1);
    forall i | 0 <= i <= |lower| - 4
      ensures !OccursAt(lower, "asia", i)
    {
      assert lower[i] != 'a' || lower[i + 1] != 's';
      assert lower[i..i + 4][0] == lower[i] && lower[i..i + 4][1] == lower[i + 1];
    }
  }

  // ---------------------------------------------------------------------
  // Per-symbol analyses
  // ---------------------------------------------------------------------

  function SymbolOf(a: Summary): string {
    a.symbol
  }

  /** The provider returned at least one close for the symbol. */
  function HasData(fetch: string -> ProviderData): string -> bool {
    s => |fetch(s).closes| > 0
  }

  /** `get_technical_summary` raises for the symbol: a single close, or
      closes that are all 0, leave `calculate_volatility` no return. */
  predicate Raises(fetch: string -> ProviderData, s: string) {
    var c := fetch(s).closes;
    |c| == 1 || (|c| > 1 && AllZero(c))
  }

  /** The loop `for symbol in symbols: analysis = get_technical_summary(symbol)`
      keeping the analyses without an `"error"` key. A symbol that makes the
      summary raise ends the whole loop with that exception. */
  function Analyses(symbols: seq<string>, fetch: string -> ProviderData): (r: Result<seq<Summary>, Error>)
    ensures r.Failure? <==> exists i :: 0 <= i < |symbols| && Raises(fetch, symbols[i])
    ensures r.Failure? ==> r.error == Raised(IndexError)
    ensures r.Success? ==> |r.value| == Count(symbols, HasData(fetch))
    // each is that symbol's summary
    ensures r.Success? ==> forall i :: 0 <= i < |r.value| ==>
      TechnicalSummary(r.value[i].symbol, fetch(r.value[i].symbol)) == Success(r.value[i])
  {
    if |symbols| == 0 then Success([])
    else
      var rest := Analyses(symbols[1..], fetch);
      var d := fetch(symbols[0]);
      assert forall i :: 1 <= i < |symbols| ==> symbols[i] == symbols[1..][i - 1];
      if Raises(fetch, symbols[0]) then Failure(Raised(IndexError))
      else if |d.closes| == 0 then rest
      else
        var a := TechnicalSummary(symbols[0], d).value;
        if rest.Success? then Success([a] + rest.value) else rest
  }

  /** The analyses follow the input: one per symbol with data, in input
      order, a repeated symbol analysed as often as it is requested. */
  lemma {:induction false} AnalysesFollowInput(symbols: seq<string>, fetch: string -> ProviderData)
    requires Analyses(symbols, fetch).Success?
    ensures Map(Analyses(symbols, fetch).value, SymbolOf) == Filter(symbols, HasData(fetch))
  {
    if |symbols| > 0 {
      AnalysesStep(symbols, fetch);
      AnalysesFollowInput(symbols[1..], fetch);
    }
  }

  /** One step of the loop: the first symbol contributes its own name when
      it has data, and nothing otherwise, both to the analyses and to the
      filtered input. */
  lemma AnalysesStep(symbols: seq<string>, fetch: string -> ProviderData)
    requires |symbols| > 0 && Analyses(symbols, fetch).Success?
    ensures Analyses(symbols[1..], fetch).Success?
    ensures var head := if HasData(fetch)(symbols[0]) then [symbols[0]] else [];
      && Map(Analyses(symbols, fetch).value, SymbolOf) == head + Map(Analyses(symbols[1..], fetch).value, SymbolOf)
      && Filter(symbols, HasData(fetch)) == head + Filter(symbols[1..], HasData(fetch))
  {
    var d := fetch(symbols[0]);
    var rest := Analyses(symbols[1..], fetch);
    if |d.closes| > 0 {
      var a := TechnicalSummary(symbols[0], d).value;
      assert Analyses(symbols, fetch).value == [a] + rest.value;
      MapCons(a, rest.value, SymbolOf);
    }
  }

  /** Three requested symbols of which one has no data give two analyses. */
  lemma OneFailureOfThree(fetch: string -> ProviderData)
    requires |fetch("AAPL").closes| > 1 && !AllZero(fetch("AAPL").closes)
    requires |fetch("MSFT").closes| == 0
    requires |fetch("TSM").closes| > 1 && !AllZero(fetch("TSM").closes)
    ensures Analyses(["AAPL", "MSFT", "TSM"], fetch).Success?
    ensures |Analyses(["AAPL", "MSFT", "TSM"], fetch).value| == 2
  {
    var syms := ["AAPL", "MSFT", "TSM"];
    assert syms[1..] == ["MSFT", "TSM"];
    assert syms[1..][1..] == ["TSM"];
    assert syms[1..][1..][1..] == [];
  }

  // ---------------------------------------------------------------------
  // Risk exposure
  // ---------------------------------------------------------------------

  predicate IsHighRisk(a: Summary) {
    a.riskLevel == High
  }

  /** The volatilities as numbers, a NaN read as 0 (only used when none is
      NaN). */
  function Volatilities(analyses: seq<Summary>): (vs: seq<real>)
    ensures |vs| == |analyses|
  {
    seq(|analyses|, i requires 0 <= i < |analyses| => analyses[i].volatility.GetOr(0.0))
  }

  /** `total_volatility += analysis.get('volatility', 0)` over the loop: a
      NaN volatility makes the total NaN, and otherwise the total is the sum
      of the volatilities. */
  function TotalVolatility(analyses: seq<Summary>): (t: Option<real>)
    ensures t.Some? <==> forall i :: 0 <= i < |analyses| ==> analyses[i].volatility.Some?
    ensures t.Some? ==> t.value == Sum(Volatilities(analyses))
  {
    if |analyses| == 0 then Some(0.0)
    else
      var n := |analyses|;
      assert Volatilities(analyses[..n - 1]) == Volatilities(analyses)[..n - 1];
      match (TotalVolatility(analyses[..n - 1]), analyses[n - 1].volatility)
      case (Some(t), Some(v)) => Some(t + v)
      case _ => None
  }

  function BetaOf(a: Summary): real {
    a.beta
  }

  /** `total_beta += analysis.get('beta', 1.0)` over the loop. */
  function TotalBeta(analyses: seq<Summary>): real {
    Sum(Map(analyses, BetaOf))
  }

  const MediumHighVolatility: real := 25.0
  const ElevatedBeta: real := 1.2

  datatype OverallRisk = OverallHigh | MediumHigh | OverallMedium | LowMedium {
    function Label(): string {
      match this
      case OverallHigh => "High"
      case MediumHigh => "Medium-High"
      case OverallMedium => "Medium"
      case LowMedium => "Low-Medium"
    }

    function Rationale(): string {
      match this
      case OverallHigh => "Portfolio has significant exposure to volatile assets. Consider diversification."
      case MediumHigh => "Above-average volatility. Monitor positions closely."
      case OverallMedium => "Portfolio is more sensitive to market movements than average."
      case LowMedium => "Portfolio has moderate risk exposure."
    }
  }

  /** The overall ladder: a strict majority of high-risk positions, then the
      average volatility, then the average beta. */
  function OverallRiskOf(highCount: nat, n: nat, avgVolatility: Option<real>, avgBeta: real): (o: OverallRisk)
    requires n > 0
    ensures o == OverallHigh <==> 2 * highCount > n
    ensures o == MediumHigh <==> 2 * highCount <= n && Above(avgVolatility, MediumHighVolatility)
    ensures o == OverallMedium <==>
      2 * highCount <= n && !Above(avgVolatility, MediumHighVolatility) && avgBeta > ElevatedBeta
    ensures o == LowMedium <==>
      2 * highCount <= n && !Above(avgVolatility, MediumHighVolatility) && avgBeta <= ElevatedBeta
  {
    if highCount as real > n as real / 2.0 then OverallHigh
    else if Above(avgVolatility, MediumHighVolatility) then MediumHigh
    else if avgBeta > ElevatedBeta then OverallMedium
    else LowMedium
  }

  datatype RiskReport = RiskReport(
    region: string,
    stocksAnalyzed: nat,
    stocks: seq<Summary>,
    averageVolatility: Option<real>,
    averageBeta: real,
    overallRisk: OverallRisk,
    riskSummary: string,
    highRiskPositions: seq<string>)

  const NothingAnalysed: string := "Could not analyze any stocks in the portfolio"

  /** The average volatility: NaN as soon as one volatility is NaN, and
      otherwise the mean of the volatilities. */
  function AverageVolatility(analyses: seq<Summary>): (v: Option<real>)
    requires |analyses| > 0
    ensures v.Some? <==> forall i :: 0 <= i < |analyses| ==> analyses[i].volatility.Some?
    ensures v.Some? ==> IsAverage(v.value, Sum(Volatilities(analyses)), |analyses|)
  {
    match TotalVolatility(analyses)
    case Some(t) =>
      AverageOfTotal(t, |analyses|);
      Some(t / |analyses| as real)
    case None => None
  }

  /** `avg` is the mean of `n` values summing to `total`. */
  predicate IsAverage(avg: real, total: real, n: nat) {
    avg * (n as real) == total
  }

  lemma AverageOfTotal(total: real, n: nat)
    requires n > 0
    ensures IsAverage(total / n as real, total, n)
  {
  }

  /** The report built from a non-empty list of analyses. */
  function RiskReportOf(region: Option<string>, analyses: seq<Summary>): (rep: RiskReport)
    requires |analyses| > 0
    ensures rep.stocks == analyses
    ensures rep.stocksAnalyzed == |analyses|
    ensures rep.region == (if Truthy(region) then region.value else "Global")
    ensures rep.highRiskPositions == Map(Filter(analyses, IsHighRisk), SymbolOf)
    // the two means
    ensures rep.averageVolatility.Some? <==> forall i :: 0 <= i < |analyses| ==> analyses[i].volatility.Some?
    ensures rep.averageVolatility.Some? ==> IsAverage(rep.averageVolatility.value, Sum(Volatilities(analyses)), |analyses|)
    ensures IsAverage(rep.averageBeta, TotalBeta(analyses), |analyses|)
    // the ladder on the high-risk count and the two means
    ensures rep.overallRisk == OverallRiskOf(|rep.highRiskPositions|, |analyses|, rep.averageVolatility, rep.averageBeta)
    ensures rep.riskSummary == rep.overallRisk.Rationale()
  {
    var n := |analyses|;
    var avgVolatility := AverageVolatility(analyses);
    var avgBeta := TotalBeta(analyses) / n as real;
    AverageOfTotal(TotalBeta(analyses), n);
    var highCount := Count(analyses, IsHighRisk);
    var high := Map(Filter(analyses, IsHighRisk), SymbolOf);
    var overall := OverallRiskOf(highCount, n, avgVolatility, avgBeta);
    RiskReport(
      if Truthy(region) then region.value else "Global",
      n,
      analyses,
      avgVolatility,
      avgBeta,
      overall,
      overall.Rationale(),
      high)
  }

  /** The analysis loop and report of `analyze_risk_exposure` on the
      symbols left after the region filter. */
  function ExposureOf(f: seq<string>, region: Option<string>, fetch: string -> ProviderData)
    : (r: Result<RiskReport, Error>)
    ensures r == Failure(Raised(IndexError)) <==> exists i :: 0 <= i < |f| && Raises(fetch, f[i])
    ensures r == Failure(ErrorDict(NothingAnalysed)) <==> forall i :: 0 <= i < |f| ==> |fetch(f[i]).closes| == 0
    ensures r.Success? ==>
      && r.value.stocksAnalyzed == Count(f, HasData(fetch)) > 0
      && Map(r.value.stocks, SymbolOf) == Filter(f, HasData(fetch))
      // each reported stock is the summary of its own fetched data
      && (forall i :: 0 <= i < |r.value.stocks| ==>
            TechnicalSummary(r.value.stocks[i].symbol, fetch(r.value.stocks[i].symbol)) == Success(r.value.stocks[i]))
      && (forall i :: 0 <= i < |r.value.highRiskPositions| ==> r.value.highRiskPositions[i] in f)
      && r.value == RiskReportOf(region, r.value.stocks)
  {
    match Analyses(f, fetch)
    case Failure(e) => Failure(e)
    case Success(analyses) =>
      CountZeroIff(f, HasData(fetch));
      if |analyses| == 0 then Failure(ErrorDict(NothingAnalysed))
      else
        AnalysesFollowInput(f, fetch);
        HighRiskAmongAnalysed(analyses, f, fetch);
        Success(RiskReportOf(region, analyses))
  }

  /** `analyze_risk_exposure(symbols, region)`: it raises when a symbol
      left by the region filter has a single close, returns the error
      dictionary when none of them has data, and otherwise reports on the
      symbols with data. */
  function AnalyzeRiskExposure(symbols: seq<string>, region: Option<string>, fetch: string -> ProviderData)
    : (r: Result<RiskReport, Error>)
    ensures var f := RegionFilter(symbols, region);
      && (r == Failure(Raised(IndexError)) <==> exists i :: 0 <= i < |f| && Raises(fetch, f[i]))
      && (r == Failure(ErrorDict(NothingAnalysed)) <==> forall i :: 0 <= i < |f| ==> |fetch(f[i]).closes| == 0)
      && (r.Success? ==>
            && r.value.stocksAnalyzed == Count(f, HasData(fetch)) > 0
            && Map(r.value.stocks, SymbolOf) == Filter(f, HasData(fetch))
            && (forall i :: 0 <= i < |r.value.stocks| ==>
                  TechnicalSummary(r.value.stocks[i].symbol, fetch(r.value.stocks[i].symbol)) == Success(r.value.stocks[i]))
            && (forall i :: 0 <= i < |r.value.highRiskPositions| ==> r.value.highRiskPositions[i] in f)
            // averages and the overall level as the report on those analyses states them
            && r.value == RiskReportOf(region, r.value.stocks))
  {
    ExposureOf(RegionFilter(symbols, region), region, fetch)
  }

  /** The high-risk positions name analysed symbols. */
  lemma HighRiskAmongAnalysed(analyses: seq<Summary>, f: seq<string>, fetch: string -> ProviderData)
    requires Map(analyses, SymbolOf) == Filter(f, HasData(fetch))
    ensures forall i :: 0 <= i < |Map(Filter(analyses, IsHighRisk), SymbolOf)| ==>
      Map(Filter(analyses, IsHighRisk), SymbolOf)[i] in f
  {
    var high := Filter(analyses, IsHighRisk);
    forall i | 0 <= i < |high|
      ensures high[i].symbol in f
    {
      var k :| 0 <= k < |analyses| && analyses[k] == high[i];
      assert Map(analyses, SymbolOf)[k] == high[i].symbol;
      assert Filter(f, HasData(fetch))[k] in f;
    }
  }

  // ---------------------------------------------------------------------
  // Portfolio analytics
  // ---------------------------------------------------------------------

  datatype Sentiment = SentimentBullish | SentimentBearish | Mixed {
    function Label(): string {
      match this
      case SentimentBullish => "Bullish"
      case SentimentBearish => "Bearish"
      case Mixed => "Mixed"
    }
  }

  function SentimentOf(bullish: nat, bearish: nat): (s: Sentiment)
    ensures s == SentimentBullish <==> bullish > bearish
    ensures s == SentimentBearish <==> bearish > bullish
    ensures s == Mixed <==> bullish == bearish
  {
    if bullish > bearish then SentimentBullish
    else if bearish > bullish then SentimentBearish
    else Mixed
  }

  predicate IsBullish(a: Summary) { a.trendSignal == Bullish }
  predicate IsBearish(a: Summary) { a.trendSignal == Bearish }
  predicate IsTrendNeutral(a: Summary) { a.trendSignal == TrendNeutral }
  predicate IsOverbought(a: Summary) { a.rsiSignal == RsiOverbought }
  predicate IsOversold(a: Summary) { a.rsiSignal == RsiOversold }

  /** Every analysis has exactly one trend label. */
  lemma {:induction false} TrendCountsPartition(analyses: seq<Summary>)
    ensures Count(analyses, IsBullish) + Count(analyses, IsBearish) + Count(analyses, IsTrendNeutral) == |analyses|
  {
    if |analyses| > 0 {
      TrendCountsPartition(analyses[1..]);
    }
  }

  datatype PortfolioReport = PortfolioReport(
    totalPositions: nat,
    bullishTrend: nat,
    bearishTrend: nat,
    neutralTrend: nat,
    overboughtCount: nat,
    oversoldCount: nat,
    individualAnalyses: seq<Summary>,
    portfolioSentiment: Sentiment)

  const NoSymbols: string := "No symbols provided"
  const NoStocks: string := "Could not analyze any stocks"

  /** `get_portfolio_analytics(symbols)` */
  function PortfolioAnalytics(symbols: seq<string>, fetch: string -> ProviderData): (r: Result<PortfolioReport, Error>)
    ensures |symbols| == 0 ==> r == Failure(ErrorDict(NoSymbols))
    ensures |symbols| > 0 ==>
      && (r == Failure(Raised(IndexError)) <==> exists i :: 0 <= i < |symbols| && Raises(fetch, symbols[i]))
      && (r == Failure(ErrorDict(NoStocks)) <==> forall i :: 0 <= i < |symbols| ==> |fetch(symbols[i]).closes| == 0)
    ensures r.Success? <==>
      |symbols| > 0 && Analyses(symbols, fetch).Success? && |Analyses(symbols, fetch).value| > 0
    ensures r.Success? ==>
      var rep := r.value;
      && rep.individualAnalyses == Analyses(symbols, fetch).value
      && rep.totalPositions == |rep.individualAnalyses| == Count(symbols, HasData(fetch))
      // each tally counts the analyses carrying its label
      && rep.bullishTrend == Count(rep.individualAnalyses, IsBullish)
      && rep.bearishTrend == Count(rep.individualAnalyses, IsBearish)
      && rep.neutralTrend == Count(rep.individualAnalyses, IsTrendNeutral)
      && rep.overboughtCount == Count(rep.individualAnalyses, IsOverbought)
      && rep.oversoldCount == Count(rep.individualAnalyses, IsOversold)
      && rep.bullishTrend + rep.bearishTrend + rep.neutralTrend == rep.totalPositions
      && rep.overboughtCount + rep.oversoldCount <= rep.totalPositions
      && rep.portfolioSentiment == SentimentOf(rep.bullishTrend, rep.bearishTrend)
  {
    if |symbols| == 0 then Failure(ErrorDict(NoSymbols))
    else
      match Analyses(symbols, fetch)
      case Failure(e) => Failure(e)
      case Success(analyses) =>
        CountZeroIff(symbols, HasData(fetch));
        if |analyses| == 0 then Failure(ErrorDict(NoStocks))
        else
          var bullish := Count(analyses, IsBullish);
          var bearish := Count(analyses, IsBearish);
          TrendCountsPartition(analyses);
          RsiCountsBounded(analyses);
          Success(PortfolioReport(
            |analyses|,
            bullish,
            bearish,
            |analyses| - bullish - bearish,
            Count(analyses, IsOverbought),
            Count(analyses, IsOversold),
            analyses,
            SentimentOf(bullish, bearish)))
  }

  lemma {:induction false} RsiCountsBounded(analyses: seq<Summary>)
    ensures Count(analyses, IsOverbought) + Count(analyses, IsOversold) <= |analyses|
  {
    if |analyses| > 0 {
      RsiCountsBounded(analyses[1..]);
    }
  }
}

=== FILE: scraper.dfy ===
/** The scraper's `get_earnings_news`: headlines of the first five entries
    of a news feed, and those whose article text mentions an earnings
    surprise.

    Fetching the feed and the articles is abstracted: the caller supplies
    the parsed feed, and each entry carries its title and link when the
    feed gave them, and the text of its article page, or `None` when
    fetching or parsing that page raised. */
module Scraper {
  import opened Wrappers
  import opened PyText
  import opened Seqs

  datatype FeedEntry = FeedEntry(title: Option<string>, link: Option<string>, page: Option<string>)

  datatype Feed =
    | FeedParsed(entries: seq<FeedEntry>)
    | FeedFailed(error: string)

  datatype NewsResult =
    | News(ticker: string, relevant: seq<string>, all: seq<string>)
    | NewsError(ticker: string, error: string)

  const MaxEntries: nat := 5
  const NoNewsMessage: string := "No news found in RSS feed."
  const NoSignals: string := "No strong signals found."
  const Keywords: seq<string> := ["beat", "beats", "miss", "missed", "surprise", "falls short"]

  /** `any(keyword in text for keyword in KEYWORDS)` */
  predicate MentionsKeyword(text: string) {
    exists i :: 0 <= i < |Keywords| && Contains(text, Keywords[i])
  }

  /** The article was fetched and its lower-cased text mentions a keyword. */
  predicate IsRelevant(e: FeedEntry) {
    e.page.Some? && MentionsKeyword(Lower(e.page.value))
  }

  /** The headline of an entry that has one. */
  function Title(e: FeedEntry): string {
    e.title.GetOr("")
  }

  /** `entry.title` and `entry.link` can both be read. */
  predicate Complete(e: FeedEntry) {
    e.title.Some? && e.link.Some?
  }

  /** The attribute whose read raises first: the title is read before the
      link. */
  function MissingAttribute(e: FeedEntry): string
    requires !Complete(e)
  {
    if e.title.None? then "title" else "link"
  }

  /** The message of the `AttributeError` feedparser raises for a missing
      entry attribute; the outer `except` reports it as the error. */
  function AttributeErrorMessage(name: string): string {
    "object has no attribute '" + name + "'"
  }

  /** The index of the first entry whose title or link is missing. */
  function FirstIncomplete(entries: seq<FeedEntry>): (r: Option<nat>)
    ensures r.None? <==> forall i :: 0 <= i < |entries| ==> Complete(entries[i])
    ensures r.Some? ==> r.value < |entries| && !Complete(entries[r.value])
    ensures r.Some? ==> forall i :: 0 <= i < r.value ==> Complete(entries[i])
  {
    if |entries| == 0 then None
    else if !Complete(entries[0]) then Some(0)
    else
      match FirstIncomplete(entries[1..])
      case Some(i) =>
        assert forall j :: 1 <= j <= i + 1 ==> entries[j] == entries[1..][j - 1];
        Some(i + 1)
      case None =>
        assert forall j :: 1 <= j < |entries| ==> entries[j] == entries[1..][j - 1];
        None
  }

  /** The entries looked at: `feed.entries[:5]`. */
  function Considered(entries: seq<FeedEntry>): (r: seq<FeedEntry>)
    ensures |r| == if |entries| < MaxEntries then |entries| else MaxEntries
    ensures r == entries[..|r|]
  {
    if |entries| <= MaxEntries then entries else entries[..MaxEntries]
  }

  /** `get_earnings_news(ticker)` on the feed parsed for it. */
  function GetEarningsNews(ticker: string, feed: Feed): (r: NewsResult)
    ensures r.ticker == ticker
    ensures feed.FeedFailed? ==> r == NewsError(ticker, feed.error)
    ensures feed.FeedParsed? && |feed.entries| == 0 ==> r == NewsError(ticker, NoNewsMessage)
    // an entry among the first five without a title or link aborts the call
    ensures feed.FeedParsed? && |feed.entries| > 0 ==>
      var first := Considered(feed.entries);
      FirstIncomplete(first).Some? ==>
        r == NewsError(ticker, AttributeErrorMessage(MissingAttribute(first[FirstIncomplete(first).value])))
    ensures r.News? <==>
      feed.FeedParsed? && |feed.entries| > 0 &&
      forall i :: 0 <= i < |Considered(feed.entries)| ==> Complete(Considered(feed.entries)[i])
    ensures r.News? ==>
      var first := Considered(feed.entries);
      && |r.all| == |first| <= MaxEntries
      && (forall i :: 0 <= i < |first| ==> Some(r.all[i]) == feed.entries[i].title)
      // the sentinel stands in when no article is relevant
      && ((forall i :: 0 <= i < |first| ==> !IsRelevant(first[i])) ==> r.relevant == [NoSignals])
      // otherwise every relevant headline is reported, in feed order
      && ((exists i :: 0 <= i < |first| && IsRelevant(first[i])) ==>
            r.relevant == Map(Filter(first, IsRelevant), Title))
  {
    match feed
    case FeedFailed(e) => NewsError(ticker, e)
    case FeedParsed(entries) =>
      if |entries| == 0 then NewsError(ticker, NoNewsMessage)
      else
        var first := Considered(entries);
        match FirstIncomplete(first)
        case Some(i) => NewsError(ticker, AttributeErrorMessage(MissingAttribute(first[i])))
        case None =>
          var relevant := Map(Filter(first, IsRelevant), Title);
          if |relevant| == 0 then
            assert forall i :: 0 <= i < |first| ==> !IsRelevant(first[i]);
            News(ticker, [NoSignals], Map(first, Title))
          else News(ticker, relevant, Map(first, Title))
  }

  /** Mapping after filtering keeps a subsequence of the mapped list. */
  lemma {:induction false} MapFilterSubsequence<T, U>(xs: seq<T>, p: T -> bool, f: T -> U)
    ensures IsSubsequence(Map(Filter(xs, p), f), Map(xs, f))
  {
    if |xs| > 0 {
      MapFilterSubsequence(xs[1..], p, f);
      assert Map(xs, f)[1..] == Map(xs[1..], f);
      var rest := Filter(xs[1..], p);
      if p(xs[0]) {
        assert Filter(xs, p) == [xs[0]] + rest;
        assert Map([xs[0]] + rest, f)[1..] == Map(rest, f);
      } else {
        assert Filter(xs, p) == rest;
        SubsequenceSkip(Map(rest, f), Map(xs, f));
      }
    }
  }

  /** The relevant list is either the sentinel or a selection of all the
      headlines, in the same order. */
  lemma RelevantAmongAll(ticker: string, feed: Feed)
    ensures var r := GetEarningsNews(ticker, feed);
      r.News? ==> r.relevant == [NoSignals] || IsSubsequence(r.relevant, r.all)
  {
    if feed.FeedParsed? {
      MapFilterSubsequence(Considered(feed.entries), IsRelevant, Title);
    }
  }

  /** Only five entries are read: what follows them never changes the
      result. */
  lemma LaterEntriesIgnored(ticker: string, entries: seq<FeedEntry>, more: seq<FeedEntry>)
    requires |entries| >= MaxEntries
    ensures GetEarningsNews(ticker, FeedParsed(entries + more)) == GetEarningsNews(ticker, FeedParsed(entries))
  {
    assert Considered(entries + more) == Considered(entries);
  }

  /** Two of the six keywords are redundant: "beats" contains "beat" and
      "missed" contains "miss". */
  lemma {:induction false} FourKeywordsSuffice(text: string)
    ensures MentionsKeyword(text) <==>
      Contains(text, "beat") || Contains(text, "miss") || Contains(text, "surprise") || Contains(text, "falls short")
  {
    if Contains(text, "beats") {
      ContainsPrefixOfKeyword(text, "beats", 4);
      assert "beats"[..4] == "beat";
    }
    if Contains(text, "missed") {
      ContainsPrefixOfKeyword(text, "missed", 4);
      assert "missed"[..4] == "miss";
    }
    if Contains(text, "beat") { assert Contains(text, Keywords[0]); }
    if Contains(text, "miss") { assert Contains(text, Keywords[2]); }
    if Contains(text, "surprise") { assert Contains(text, Keywords[4]); }
    if Contains(text, "falls short") { assert Contains(text, Keywords[5]); }
  }

  /** A failed article fetch only drops that entry from the relevant list;
      its headline is still reported. */
  lemma FailedFetchKeepsHeadline(ticker: string, title: string, link: string)
    ensures GetEarningsNews(ticker, FeedParsed([FeedEntry(Some(title), Some(link), None)])) == News(ticker, [NoSignals], [title])
  {
    assert !IsRelevant(FeedEntry(Some(title), Some(link), None));
  }

  /** An entry without a link makes the whole call report the error, even
      when earlier entries were fine. */
  lemma MissingLinkAbortsCall(ticker: string, good: FeedEntry, title: string)
    requires Complete(good)
    ensures GetEarningsNews(ticker, FeedParsed([good, FeedEntry(Some(title), None, None)]))
         == NewsError(ticker, "object has no attribute 'link'")
  {
    var entries := [good, FeedEntry(Some(title), None, None)];
    assert entries[1..] == [FeedEntry(Some(title), None, None)];
    assert FirstIncomplete(entries) == Some(1);
  }

  /** The sentinel is an ordinary string: one relevant article whose
      headline happens to be the sentinel reads exactly like no relevant
      article at all. */
  lemma SentinelTitleIsAmbiguous(ticker: string, page: string, title: string, link: string)
    requires MentionsKeyword(Lower(page))
    ensures GetEarningsNews(ticker, FeedParsed([FeedEntry(Some(NoSignals), Some(link), Some(page))])).relevant
         == GetEarningsNews(ticker, FeedParsed([FeedEntry(Some(title), Some(link), None)])).relevant
  {
    var e := FeedEntry(Some(NoSignals), Some(link), Some(page));
    assert IsRelevant(e);
    assert Filter([e], IsRelevant) == [e] by {
      assert [e][1..] == [];
    }
    assert !IsRelevant(FeedEntry(Some(title), Some(link), None));
  }
}

=== FILE: seqs.dfy ===
/** Order-preserving selection over sequences: the list comprehensions
    `[x for x in xs if p(x)]` and `sum(1 for x in xs if p(x))` that the
    modelled code uses everywhere. */
module Seqs {

  /** `a` is obtained from `b` by deleting elements, keeping the order. */
  predicate IsSubsequence<T(==)>(a: seq<T>, b: seq<T>)
    decreases |b|
  {
    if |a| == 0 then true
    else if |b| == 0 then false
    else if a[0] == b[0] then IsSubsequence(a[1..], b[1..])
    else IsSubsequence(a, b[1..])
  }

  /** Dropping the head of a subsequence keeps it a subsequence. */
  lemma {:induction false} SubsequenceTail<T>(a: seq<T>, b: seq<T>)
    requires |a| > 0 && IsSubsequence(a, b)
    ensures IsSubsequence(a[1..], b)
    decreases |b|, 1
  {
    if a[0] == b[0] {
      SubsequenceSkip(a[1..], b);
    } else {
      SubsequenceTail(a, b[1..]);
      SubsequenceSkip(a[1..], b);
    }
  }

  /** A subsequence of the tail of `b` is a subsequence of `b`. */
  lemma {:induction false} SubsequenceSkip<T>(a: seq<T>, b: seq<T>)
    requires |b| > 0 && IsSubsequence(a, b[1..])
    ensures IsSubsequence(a, b)
    decreases |b|, 0
  {
    if |a| > 0 && a[0] == b[0] {
      SubsequenceTail(a, b[1..]);
    }
  }

  /** `[x for x in xs if p(x)]` */
  function Filter<T(==)>(xs: seq<T>, p: T -> bool): (r: seq<T>)
    ensures |r| <= |xs|
    ensures forall i :: 0 <= i < |r| ==> p(r[i]) && r[i] in xs
    ensures forall i :: 0 <= i < |xs| && p(xs[i]) ==> xs[i] in r
    ensures IsSubsequence(r, xs)
    ensures |r| == Count(xs, p)
  {
    if |xs| == 0 then []
    else
      var rest := Filter(xs[1..], p);
      if p(xs[0]) then
        assert ([xs[0]] + rest)[1..] == rest;
        [xs[0]] + rest
      else
        SubsequenceSkip(rest, xs);
        rest
  }

  /** `sum(1 for x in xs if p(x))` */
  function Count<T>(xs: seq<T>, p: T -> bool): nat {
    if |xs| == 0 then 0 else (if p(xs[0]) then 1 else 0) + Count(xs[1..], p)
  }

  /** Counting the matches is taking the length of the filtered list. */
  lemma {:induction false} CountIsFilterLength<T>(xs: seq<T>, p: T -> bool)
    ensures Count(xs, p) == |Filter(xs, p)|
  {
    if |xs| > 0 {
      CountIsFilterLength(xs[1..], p);
    }
  }

  /** No element is counted exactly when none passes the test. */
  lemma {:induction false} CountZeroIff<T>(xs: seq<T>, p: T -> bool)
    ensures Count(xs, p) == 0 <==> forall i :: 0 <= i < |xs| ==> !p(xs[i])
  {
    if |xs| > 0 {
      CountZeroIff(xs[1..], p);
      assert forall i :: 1 <= i < |xs| ==> xs[i] == xs[1..][i - 1];
    }
  }

  /** Filtering a list with a test that holds everywhere returns it whole. */
  lemma {:induction false} FilterAll<T>(xs: seq<T>, p: T -> bool)
    requires forall i :: 0 <= i < |xs| ==> p(xs[i])
    ensures Filter(xs, p) == xs
  {
    if |xs| > 0 {
      FilterAll(xs[1..], p);
    }
  }

  /** `[f(x) for x in xs]` */
  function Map<T, U>(xs: seq<T>, f: T -> U): (r: seq<U>)
    ensures |r| == |xs|
    ensures forall i :: 0 <= i < |xs| ==> r[i] == f(xs[i])
  {
    seq(|xs|, i requires 0 <= i < |xs| => f(xs[i]))
  }

  /** Mapping over a list with a new head maps the head first. */
  lemma MapCons<T, U>(x: T, xs: seq<T>, f: T -> U)
    ensures Map([x] + xs, f) == [f(x)] + Map(xs, f)
  {
    assert forall i :: 1 <= i < |xs| + 1 ==> ([x] + xs)[i] == xs[i - 1];
  }
}

=== FILE: signals.dfy ===
/** The categorical signals `get_technical_summary` derives from the last
    value of each indicator, and the per-symbol risk level.

    Every threshold is a strict comparison, and a NaN indicator (`None`)
    fails every comparison, so it falls through to the neutral label just
    as the Python code does. */
module Signals {
  import opened Wrappers

  // ---------------------------------------------------------------------
  // RSI signal
  // ---------------------------------------------------------------------

  const Overbought: real := 70.0
  const Oversold: real := 30.0

  datatype RsiSignal = RsiOverbought | RsiOversold | RsiNeutral {
    function Label(): string {
      match this
      case RsiOverbought => "Overbought"
      case RsiOversold => "Oversold"
      case RsiNeutral => "Neutral"
    }
  }

  /** `x > c` where `x` may be NaN. */
  predicate Above(x: Option<real>, c: real) {
    x.Some? && x.value > c
  }

  /** `x < c` where `x` may be NaN. */
  predicate Below(x: Option<real>, c: real) {
    x.Some? && x.value < c
  }

  function RsiSignalOf(rsi: Option<real>): (s: RsiSignal)
    ensures s == RsiOverbought <==> rsi.Some? && rsi.value > Overbought
    ensures s == RsiOversold <==> rsi.Some? && rsi.value < Oversold
    ensures s == RsiNeutral <==> rsi.None? || Oversold <= rsi.value <= Overbought
  {
    if Above(rsi, Overbought) then RsiOverbought
    else if Below(rsi, Oversold) then RsiOversold
    else RsiNeutral
  }

  // ---------------------------------------------------------------------
  // Trend signal (SMA 20 against SMA 50)
  // ---------------------------------------------------------------------

  datatype TrendSignal = Bullish | Bearish | TrendNeutral {
    function Label(): string {
      match this
      case Bullish => "Bullish"
      case Bearish => "Bearish"
      case TrendNeutral => "Neutral"
    }
  }

  function TrendSignalOf(short: Option<real>, long: Option<real>): (s: TrendSignal)
    ensures s == Bullish <==> short.Some? && long.Some? && short.value > long.value
    ensures s == Bearish <==> short.Some? && long.Some? && short.value < long.value
    ensures s == TrendNeutral <==> short.None? || long.None? || short.value == long.value
  {
    if short.Some? && long.Some? && short.value > long.value then Bullish
    else if short.Some? && long.Some? && short.value < long.value then Bearish
    else TrendNeutral
  }

  /** Swapping the two averages swaps bullish and bearish. */
  lemma TrendSignalAntisymmetric(a: Option<real>, b: Option<real>)
    ensures TrendSignalOf(a, b) == Bullish <==> TrendSignalOf(b, a) == Bearish
    ensures TrendSignalOf(a, b) == TrendNeutral <==> TrendSignalOf(b, a) == TrendNeutral
  {
  }

  // ---------------------------------------------------------------------
  // Bollinger signal
  // ---------------------------------------------------------------------

  const UpperProximity: real := 0.98
  const LowerProximity: real := 1.02

  datatype BandSignal = NearUpper | NearLower | WithinBands {
    function Label(): string {
      match this
      case NearUpper => "Near Upper"
      case NearLower => "Near Lower"
      case WithinBands => "Within Bands"
    }
  }

  function BandSignalOf(price: real, upper: Option<real>, lower: Option<real>): (s: BandSignal)
    ensures s == NearUpper <==> upper.Some? && price > upper.value * UpperProximity
    ensures s == NearLower <==>
      !(upper.Some? && price > upper.value * UpperProximity) &&
      lower.Some? && price < lower.value * LowerProximity
    ensures s == WithinBands <==>
      (upper.None? || price <= upper.value * UpperProximity) &&
      (lower.None? || price >= lower.value * LowerProximity)
  {
    if upper.Some? && price > upper.value * UpperProximity then NearUpper
    else if lower.Some? && price < lower.value * LowerProximity then NearLower
    else WithinBands
  }

  /** On a narrow band both proximity tests can hold at once; the upper one
      is checked first and wins. */
  lemma NearUpperWinsOnNarrowBand()
    ensures 99.5 > 100.0 * UpperProximity && 99.5 < 99.0 * LowerProximity
    ensures BandSignalOf(99.5, Some(100.0), Some(99.0)) == NearUpper
  {
  }

  // ---------------------------------------------------------------------
  // Risk level
  // ---------------------------------------------------------------------

  datatype RiskLevel = Low | Medium | High {
    function Label(): string {
      match this
      case Low => "Low"
      case Medium => "Medium"
      case High => "High"
    }

    function Severity(): nat {
      match this
      case Low => 0
      case Medium => 1
      case High => 2
    }
  }

  const HighVolatility: real := 30.0
  const MediumVolatility: real := 20.0
  const HighBeta: real := 1.5
  const MediumBeta: real := 1.0

  /** `"High" if volatility > 30 or beta > 1.5 else "Medium" if volatility > 20
      or beta > 1.0 else "Low"`, where a NaN volatility fails its tests. */
  function RiskLevelOf(volatility: Option<real>, beta: real): (r: RiskLevel)
    ensures r == High <==> Above(volatility, HighVolatility) || beta > HighBeta
    ensures r == Medium <==>
      !(Above(volatility, HighVolatility) || beta > HighBeta) &&
      (Above(volatility, MediumVolatility) || beta > MediumBeta)
    ensures r == Low <==> !Above(volatility, MediumVolatility) && beta <= MediumBeta
  {
    if Above(volatility, HighVolatility) || beta > HighBeta then High
    else if Above(volatility, MediumVolatility) || beta > MediumBeta then Medium
    else Low
  }

  /** More volatility never lowers the risk level. */
  lemma RiskMonotoneInVolatility(v1: real, v2: real, beta: real)
    requires v1 <= v2
    ensures RiskLevelOf(Some(v1), beta).Severity() <= RiskLevelOf(Some(v2), beta).Severity()
  {
  }

  /** A higher beta never lowers the risk level. */
  lemma RiskMonotoneInBeta(volatility: Option<real>, b1: real, b2: real)
    requires b1 <= b2
    ensures RiskLevelOf(volatility, b1).Severity() <= RiskLevelOf(volatility, b2).Severity()
  {
  }

  /** A NaN volatility rates like any calm one: only beta decides. */
  lemma UndefinedVolatilityRatesAsCalm(v: real, beta: real)
    requires v <= MediumVolatility
    ensures RiskLevelOf(None, beta) == RiskLevelOf(Some(v), beta)
  {
  }
}

=== FILE: summary.dfy ===
/** `get_technical_summary`: one symbol's price, look-back changes,
    indicators, signals and risk level.

    Fetching is abstracted: the caller supplies what the price-history
    provider returned for the symbol and for the market benchmark. */
module Summary {
  import opened Wrappers
  import opened Indicators
  import opened Signals

  /** What the data provider yields for one symbol. */
  datatype SymbolData = SymbolData(
    /** Six months of daily closes, oldest first; empty when the provider
        has no data for the symbol. */
    closes: seq<real>,
    /** The 20-bar rolling standard deviation of the closes at the last bar
        (never negative). */
    bandStd: real,
    /** `calculate_volatility(close)` for a history of more than 20 closes,
        `None` when it is NaN there (a zero close makes a return infinite or
        drops it). It is not used for shorter histories, whose volatility is
        NaN, nor for histories on which it raises. */
    volatility: Option<real>,
    /** `None` when the benchmark history is empty; otherwise the stock's and
        the benchmark's returns over the last 60 bars, aligned by date. */
    benchmark: Option<ReturnPairs>)

  /** `calculate_beta` keeps the last 60 returns of each series (`tail(60)`). */
  const BetaPeriod: nat := 60

  /** What a provider can return: a standard deviation is never negative,
      and the aligned pairs are at most the last 60 of the stock's returns,
      of which `n` closes have `n - 1`. */
  predicate Consistent(d: SymbolData) {
    && d.bandStd >= 0.0
    && (d.benchmark.Some? ==>
          && |d.benchmark.value| <= BetaPeriod
          && (|d.benchmark.value| == 0 || |d.benchmark.value| < |d.closes|))
  }

  type ProviderData = d: SymbolData | Consistent(d) witness SymbolData([], 0.0, None, None)

  datatype Summary = Summary(
    symbol: string,
    currentPrice: real,
    change1d: Option<real>,
    change1w: Option<real>,
    change1m: Option<real>,
    rsi: Option<real>,
    rsiSignal: RsiSignal,
    sma20: Option<real>,
    sma50: Option<real>,
    trendSignal: TrendSignal,
    bollingerUpper: Option<real>,
    bollingerLower: Option<real>,
    bollingerSignal: BandSignal,
    volatility: Option<real>,
    beta: real,
    riskLevel: RiskLevel)

  /** How a call of the analytics agent ends without a result: with the
      error dictionary it returns, or with an exception that escapes it. */
  datatype Error = ErrorDict(message: string) | Raised(exception: string)

  const IndexError: string := "IndexError"

  function NoDataMessage(symbol: string): string {
    "No data found for " + symbol
  }

  /** `calculate_volatility` takes the rolling deviation of 20 returns, so
      it needs more than 20 closes. */
  const VolatilityPeriod: nat := 20

  /** `prices.pct_change()` at bar `i > 0` is `(c[i] - c[i-1]) / c[i-1]`.
      It is NaN, and dropped by `dropna()`, exactly when both closes are 0;
      a zero base under a non-zero close is an infinite return, which
      `dropna()` keeps. */
  predicate ReturnKept(prev: real, cur: real) {
    !(prev == 0.0 && cur == 0.0)
  }

  /** How many returns `prices.pct_change().dropna()` keeps. */
  function KeptReturns(closes: seq<real>): (k: nat)
    ensures |closes| > 0 ==> k < |closes|
    ensures |closes| == 0 ==> k == 0
  {
    if |closes| <= 1 then 0
    else
      var n := |closes|;
      KeptReturns(closes[..n - 1]) + (if ReturnKept(closes[n - 2], closes[n - 1]) then 1 else 0)
  }

  predicate AllZero(closes: seq<real>) {
    forall i :: 0 <= i < |closes| ==> closes[i] == 0.0
  }

  /** `dropna()` leaves no return at all exactly on a single close or on a
      history whose closes are all 0; `calculate_volatility` then raises
      `IndexError` at `.iloc[-1]`. */
  lemma {:induction false} NoReturnsIff(closes: seq<real>)
    requires |closes| > 0
    ensures KeptReturns(closes) == 0 <==> |closes| == 1 || AllZero(closes)
  {
    var n := |closes|;
    if n > 1 {
      var p := closes[..n - 1];
      NoReturnsIff(p);
      assert forall i :: 0 <= i < |p| ==> p[i] == closes[i];
      if KeptReturns(closes) == 0 && n > 2 {
        assert AllZero(p);
      }
    }
  }

  /** `calculate_volatility(close)` on a history that keeps at least one
      return: the 20-return rolling deviation at the last bar is NaN until
      20 returns exist, and `n` closes give at most `n - 1` of them. */
  function VolatilityOf(d: SymbolData): (v: Option<real>)
    requires |d.closes| > 1 && !AllZero(d.closes)
    ensures v.Some? ==> |d.closes| > VolatilityPeriod
    ensures |d.closes| > VolatilityPeriod ==> v == d.volatility
  {
    if |d.closes| - 1 < VolatilityPeriod then None else d.volatility
  }

  /** `(current - base) / base * 100`; a zero base gives a non-finite float,
      modelled as `None`. */
  function PercentChange(current: real, base: real): (c: Option<real>)
    ensures c.None? <==> base == 0.0
    ensures c.Some? && base > 0.0 ==> (c.value > 0.0 <==> current > base)
    ensures c.Some? && base > 0.0 ==> (c.value < 0.0 <==> current < base)
    ensures c.Some? ==> c.value * base == (current - base) * 100.0
  {
    if base == 0.0 then None
    else
      var c := (current - base) / base * 100.0;
      PercentChangeSign(current, base, c);
      Some(c)
  }

  lemma PercentChangeSign(current: real, base: real, c: real)
    requires base != 0.0 && c == (current - base) / base * 100.0
    ensures base > 0.0 ==> (c > 0.0 <==> current > base)
    ensures base > 0.0 ==> (c < 0.0 <==> current < base)
    ensures c * base == (current - base) * 100.0
  {
    var q := (current - base) / base;
    assert q * base == current - base;
    assert c * base == q * base * 100.0;
  }

  /** The change against `close.iloc[-back]`, taken only when the series
      is longer than `minLength`; otherwise the change is 0. */
  function ChangeOver(close: seq<real>, back: nat, minLength: nat): (c: Option<real>)
    requires |close| > 0
    requires 1 <= back <= minLength + 1
    ensures |close| <= minLength ==> c == Some(0.0)
    ensures |close| > minLength ==>
      c == PercentChange(close[|close| - 1], close[|close| - back])
  {
    if |close| > minLength then PercentChange(close[|close| - 1], close[|close| - back])
    else Some(0.0)
  }

  /** One day: `close.iloc[-2]`, used when `len(close) > 1`. */
  function Change1d(close: seq<real>): Option<real>
    requires |close| > 0
  {
    ChangeOver(close, 2, 1)
  }

  /** One week: `close.iloc[-5]`, used when `len(close) > 5`. */
  function Change1w(close: seq<real>): Option<real>
    requires |close| > 0
  {
    ChangeOver(close, 5, 5)
  }

  /** One month: `close.iloc[-20]`, used when `len(close) > 20`. */
  function Change1m(close: seq<real>): Option<real>
    requires |close| > 0
  {
    ChangeOver(close, 20, 20)
  }

  function UpperOf(b: Option<Band>): Option<real> {
    if b.Some? then Some(b.value.upper) else None
  }

  function LowerOf(b: Option<Band>): Option<real> {
    if b.Some? then Some(b.value.lower) else None
  }

  /** The beta of the summary: 1.0 when the benchmark history is empty. */
  function SummaryBeta(benchmark: Option<ReturnPairs>): (b: real)
    ensures benchmark.None? ==> b == DefaultBeta
    ensures benchmark.Some? && |benchmark.value| < MinBetaPairs ==> b == DefaultBeta
    ensures benchmark.Some? && |benchmark.value| >= MinBetaPairs ==> b == Beta(benchmark.value)
  {
    if benchmark.Some? then Beta(benchmark.value) else DefaultBeta
  }

  /** `get_technical_summary(symbol)` on the data fetched for `symbol`: the
      no-data dictionary for an empty history, and the `IndexError` of
      `calculate_volatility` for a single close or all-zero closes. */
  function TechnicalSummary(symbol: string, d: ProviderData): (r: Result<Summary, Error>)
    ensures r.Failure? <==> |d.closes| <= 1 || AllZero(d.closes)
    ensures |d.closes| == 0 ==> r == Failure(ErrorDict(NoDataMessage(symbol)))
    ensures |d.closes| > 0 && (|d.closes| == 1 || AllZero(d.closes)) ==> r == Failure(Raised(IndexError))
    ensures r.Success? ==>
      var s := r.value;
      var n := |d.closes|;
      && s.symbol == symbol
      && s.currentPrice == d.closes[n - 1]
      && (s.volatility.Some? ==> n > VolatilityPeriod)
      && (n > VolatilityPeriod ==> s.volatility == d.volatility)
      // each label agrees with the indicator value reported beside it
      && s.rsiSignal == RsiSignalOf(s.rsi)
      && s.trendSignal == TrendSignalOf(s.sma20, s.sma50)
      && s.bollingerSignal == BandSignalOf(s.currentPrice, s.bollingerUpper, s.bollingerLower)
      && s.riskLevel == RiskLevelOf(s.volatility, s.beta)
      // each indicator is undefined until its window is full
      && (s.rsi.Some? ==> n >= RsiPeriod && 0.0 <= s.rsi.value <= 100.0)
      && (s.sma20.Some? <==> n >= ShortWindow)
      && (s.sma50.Some? <==> n >= LongWindow)
      && (s.bollingerUpper.Some? <==> n >= BandPeriod)
      && (s.bollingerLower.Some? <==> s.bollingerUpper.Some?)
      && (d.benchmark.None? ==> s.beta == DefaultBeta)
      && (d.benchmark.Some? ==> s.beta == Beta(d.benchmark.value))
  {
    var close := d.closes;
    if |close| == 0 then Failure(ErrorDict(NoDataMessage(symbol)))
    else
      // no return survives `dropna()` (`NoReturnsIff`)
      if |close| == 1 || AllZero(close) then Failure(Raised(IndexError))
      else
        var last := |close| - 1;
        var price := close[last];
        var rsi := CalculateRsi(close, RsiPeriod)[last];
        var mas := CalculateMovingAverages(close, ShortWindow, LongWindow);
        var band := BandAt(close, BandPeriod, last, d.bandStd, BandWidth);
        var beta := SummaryBeta(d.benchmark);
        Success(Summary(
          symbol,
          price,
          Change1d(close),
          Change1w(close),
          Change1m(close),
          rsi,
          RsiSignalOf(rsi),
          mas.short[last],
          mas.long[last],
          TrendSignalOf(mas.short[last], mas.long[last]),
          UpperOf(band),
          LowerOf(band),
          BandSignalOf(price, UpperOf(band), LowerOf(band)),
          VolatilityOf(d),
          beta,
          RiskLevelOf(VolatilityOf(d), beta)))
  }

  /** The RSI a summary reports is that of the last 14 bars: undefined
      when the price did not move over them, else the share of the average
      gain in the average movement. */
  lemma SummaryRsiValue(symbol: string, d: ProviderData)
    requires |d.closes| > 1 && !AllZero(d.closes)
    ensures var s := TechnicalSummary(symbol, d).value;
      var n := |d.closes|;
      && (n < RsiPeriod ==> s.rsi.None?)
      && (n >= RsiPeriod ==>
            && (s.rsi.None? <==> AvgGain(d.closes, RsiPeriod, n - 1) == 0.0 && AvgLoss(d.closes, RsiPeriod, n - 1) == 0.0)
            && (s.rsi.Some? ==> IsGainShare(s.rsi.value, AvgGain(d.closes, RsiPeriod, n - 1), AvgLoss(d.closes, RsiPeriod, n - 1))))
  {
    LastRsi(d.closes, TechnicalSummary(symbol, d).value.rsi);
  }

  /** The averages a summary reports are the means of the last 20 and the
      last 50 closes. */
  lemma SummaryAverageValues(symbol: string, d: ProviderData)
    requires |d.closes| > 1 && !AllZero(d.closes)
    ensures var s := TechnicalSummary(symbol, d).value;
      var n := |d.closes|;
      && (s.sma20.Some? ==> s.sma20.value == Mean(d.closes[n - ShortWindow..n]))
      && (s.sma50.Some? ==> s.sma50.value == Mean(d.closes[n - LongWindow..n]))
  {
    var last := |d.closes| - 1;
    var mas := CalculateMovingAverages(d.closes, ShortWindow, LongWindow);
    LastAverages(d.closes, mas.short[last], mas.long[last]);
  }

  /** The bands a summary reports lie two rolling deviations either side of
      the mean of the last 20 closes. */
  lemma SummaryBandValues(symbol: string, d: ProviderData)
    requires |d.closes| > 1 && !AllZero(d.closes)
    ensures var s := TechnicalSummary(symbol, d).value;
      var n := |d.closes|;
      && (s.bollingerUpper.Some? ==> s.bollingerUpper.value == Mean(d.closes[n - BandPeriod..n]) + d.bandStd * BandWidth)
      && (s.bollingerLower.Some? ==> s.bollingerLower.value == Mean(d.closes[n - BandPeriod..n]) - d.bandStd * BandWidth)
      && (s.bollingerLower.Some? ==> s.bollingerLower.value <= s.bollingerUpper.value)
  {
    var band := BandAt(d.closes, BandPeriod, |d.closes| - 1, d.bandStd, BandWidth);
    LastBands(d.closes, d.bandStd, UpperOf(band), LowerOf(band));
  }

  lemma LastRsi(close: seq<real>, rsi: Option<real>)
    requires |close| > 0 && rsi == CalculateRsi(close, RsiPeriod)[|close| - 1]
    ensures var n := |close|;
      && (n < RsiPeriod ==> rsi.None?)
      && (n >= RsiPeriod ==>
            && (rsi.None? <==> AvgGain(close, RsiPeriod, n - 1) == 0.0 && AvgLoss(close, RsiPeriod, n - 1) == 0.0)
            && (rsi.Some? ==> IsGainShare(rsi.value, AvgGain(close, RsiPeriod, n - 1), AvgLoss(close, RsiPeriod, n - 1))))
  {
  }

  lemma LastAverages(close: seq<real>, sma20: Option<real>, sma50: Option<real>)
    requires |close| > 0
    requires sma20 == CalculateMovingAverages(close, ShortWindow, LongWindow).short[|close| - 1]
    requires sma50 == CalculateMovingAverages(close, ShortWindow, LongWindow).long[|close| - 1]
    ensures var n := |close|;
      && (sma20.Some? ==> sma20.value == Mean(close[n - ShortWindow..n]))
      && (sma50.Some? ==> sma50.value == Mean(close[n - LongWindow..n]))
  {
  }

  lemma LastBands(close: seq<real>, std: real, upper: Option<real>, lower: Option<real>)
    requires |close| > 0 && std >= 0.0
    requires upper == UpperOf(BandAt(close, BandPeriod, |close| - 1, std, BandWidth))
    requires lower == LowerOf(BandAt(close, BandPeriod, |close| - 1, std, BandWidth))
    ensures var n := |close|;
      && (upper.Some? ==> upper.value == Mean(close[n - BandPeriod..n]) + std * BandWidth)
      && (lower.Some? ==> lower.value == Mean(close[n - BandPeriod..n]) - std * BandWidth)
      && (lower.Some? ==> upper.Some? && lower.value <= upper.value)
  {
  }

  /** The look-back guards. A history that gets past the volatility has at
      least two closes, so the daily change is always measured, against the
      previous bar; the weekly and monthly changes are 0 until the series
      is longer than 5 and 20 bars, and then measured 4 and 19 bars back. */
  lemma LookBackGuards(symbol: string, d: ProviderData)
    requires |d.closes| > 1 && !AllZero(d.closes)
    ensures var s := TechnicalSummary(symbol, d).value;
      var n := |d.closes|;
      && s.change1d == PercentChange(d.closes[n - 1], d.closes[n - 2])
      && (n <= 5 ==> s.change1w == Some(0.0))
      && (n > 5 ==> s.change1w == PercentChange(d.closes[n - 1], d.closes[n - 5]))
      && (n <= 20 ==> s.change1m == Some(0.0))
      && (n > 20 ==> s.change1m == PercentChange(d.closes[n - 1], d.closes[n - 20]))
  {
  }

  /** With fewer than 50 closes the long average is NaN, so the trend is
      neutral whatever the prices do. */
  lemma ShortHistoryTrendIsNeutral(symbol: string, d: ProviderData)
    requires 1 < |d.closes| < LongWindow && !AllZero(d.closes)
    ensures TechnicalSummary(symbol, d).value.trendSignal == TrendNeutral
  {
  }

  /** Up to 20 closes the volatility is NaN, which passes no threshold, so
      the risk level is decided by beta alone. */
  lemma ShortHistoryRiskFollowsBeta(symbol: string, d: ProviderData)
    requires 1 < |d.closes| <= VolatilityPeriod && !AllZero(d.closes)
    ensures var s := TechnicalSummary(symbol, d).value;
      && s.volatility.None?
      && (s.riskLevel == High <==> s.beta > HighBeta)
      && (s.riskLevel == Medium <==> MediumBeta < s.beta <= HighBeta)
  {
  }

  /** With at most 10 closes there are at most 9 returns, too few aligned
      pairs for beta, and the volatility is NaN: such a stock is rated Low
      whatever its prices and the market do. */
  lemma ShortHistoryIsLowRisk(symbol: string, d: ProviderData)
    requires 1 < |d.closes| <= MinBetaPairs && !AllZero(d.closes)
    ensures var s := TechnicalSummary(symbol, d).value;
      && s.beta == DefaultBeta
      && s.riskLevel == Low
  {
  }

  /** Two closes of 0 give two NaN returns, both dropped: the summary
      raises just as a single close does. */
  lemma ZeroHistoryRaises(symbol: string)
    ensures TechnicalSummary(symbol, SymbolData([0.0, 0.0], 0.0, None, None)) == Failure(Raised(IndexError))
  {
  }
}

=== FILE: text.dfy ===
/** The handful of Python `str` operations the modelled code relies on:
    `lower`, `upper`, `isupper`, `strip`, `rstrip(ch)`, `in` on strings,
    `endswith` and the prefix slice `s[:k]`.

    Case mapping covers the ASCII letters only; every other character is
    treated as uncased. Whitespace is Python's full `str.isspace` set. */
module PyText {

  predicate IsUpperChar(c: char) {
    'A' <= c <= 'Z'
  }

  predicate IsLowerChar(c: char) {
    'a' <= c <= 'z'
  }

  function LowerChar(c: char): char {
    if IsUpperChar(c) then (c as int + 32) as char else c
  }

  function UpperChar(c: char): char {
    if IsLowerChar(c) then (c as int - 32) as char else c
  }

  /** `s.lower()` */
  function Lower(s: string): string {
    seq(|s|, i requires 0 <= i < |s| => LowerChar(s[i]))
  }

  /** `s.upper()` */
  function Upper(s: string): string {
    seq(|s|, i requires 0 <= i < |s| => UpperChar(s[i]))
  }

  /** `s.isupper()`: at least one cased character and no lower-case one. */
  predicate IsUpper(s: string) {
    && (exists i :: 0 <= i < |s| && IsUpperChar(s[i]))
    && (forall i :: 0 <= i < |s| ==> !IsLowerChar(s[i]))
  }

  /** The characters for which Python's `str.isspace` holds. */
  predicate IsSpace(c: char) {
    var k := c as int;
    || 9 <= k <= 13
    || 28 <= k <= 32
    || k == 0x85 || k == 0xA0 || k == 0x1680
    || 0x2000 <= k <= 0x200A
    || k == 0x2028 || k == 0x2029 || k == 0x202F || k == 0x205F || k == 0x3000
  }

  predicate AllSpace(s: string) {
    forall i :: 0 <= i < |s| ==> IsSpace(s[i])
  }

  function LStrip(s: string): string {
    if |s| > 0 && IsSpace(s[0]) then LStrip(s[1..]) else s
  }

  function RStrip(s: string): string {
    if |s| > 0 && IsSpace(s[|s| - 1]) then RStrip(s[..|s| - 1]) else s
  }

  /** `s.strip()` */
  function Strip(s: string): string {
    RStrip(LStrip(s))
  }

  /** `sub` occurs in `s` starting at index `i`. */
  predicate OccursAt(s: string, sub: string, i: int) {
    0 <= i <= |s| - |sub| && s[i..i + |sub|] == sub
  }

  /** `sub in s` */
  predicate Contains(s: string, sub: string) {
    exists i :: 0 <= i <= |s| - |sub| && OccursAt(s, sub, i)
  }

  /** `s.endswith(suffix)` */
  predicate EndsWith(s: string, suffix: string) {
    |suffix| <= |s| && s[|s| - |suffix|..] == suffix
  }

  /** `s.rstrip(c)` for a single character `c`. */
  function RStripChar(s: string, c: char): (r: string)
    ensures |r| <= |s| && r == s[..|r|]
    ensures |r| == 0 || r[|r| - 1] != c
    ensures forall i :: |r| <= i < |s| ==> s[i] == c
  {
    if |s| > 0 && s[|s| - 1] == c then RStripChar(s[..|s| - 1], c) else s
  }

  /** `s` has no occurrence of the character `sep`. */
  predicate Free(s: string, sep: char) {
    forall i :: 0 <= i < |s| ==> s[i] != sep
  }

  /** `s.split(sep)` for a one-character separator: never empty, one more
      piece than there are separators. */
  function Split(s: string, sep: char): (r: seq<string>)
    ensures |r| >= 1
    ensures forall k :: 0 <= k < |r| ==> Free(r[k], sep)
    decreases |s|
  {
    if |s| == 0 then [""]
    else
      var rest := Split(s[1..], sep);
      if s[0] == sep then [""] + rest
      else [[s[0]] + rest[0]] + rest[1..]
  }

  /** `sep.join(pieces)` */
  function Join(sep: string, pieces: seq<string>): string
    decreases |pieces|
  {
    if |pieces| == 0 then ""
    else if |pieces| == 1 then pieces[0]
    else pieces[0] + sep + Join(sep, pieces[1..])
  }

  /** `s[:k]`, where a negative `k` counts from the end and every bound is
      clamped to the string. */
  function PyPrefix(s: string, k: int): string {
    if k >= 0 then (if k <= |s| then s[..k] else s)
    else if |s| + k >= 0 then s[..|s| + k]
    else []
  }

  // ---------------------------------------------------------------------
  // Facts about the helpers
  // ---------------------------------------------------------------------

  lemma LowerConcat(a: string, b: string)
    ensures Lower(a + b) == Lower(a) + Lower(b)
  {
    assert forall i :: 0 <= i < |a + b| ==> Lower(a + b)[i] == (Lower(a) + Lower(b))[i];
  }

  lemma LowerOfSpace(s: string)
    requires AllSpace(s)
    ensures Lower(s) == s
  {
  }

  /** Leading whitespace never survives `LStrip`. */
  lemma {:induction false} LStripSpacePrefix(a: string, x: string)
    requires AllSpace(a)
    ensures LStrip(a + x) == LStrip(x)
    decreases |a|
  {
    if |a| > 0 {
      assert (a + x)[1..] == a[1..] + x;
      LStripSpacePrefix(a[1..], x);
    } else {
      assert a + x == x;
    }
  }

  lemma {:induction false} RStripSpaceSuffix(x: string, b: string)
    requires AllSpace(b)
    ensures RStrip(x + b) == RStrip(x)
    decreases |b|
  {
    if |b| > 0 {
      assert (x + b)[..|x + b| - 1] == x + b[..|b| - 1];
      RStripSpaceSuffix(x, b[..|b| - 1]);
    } else {
      assert x + b == x;
    }
  }

  lemma {:induction false} StripOfSpace(b: string)
    requires AllSpace(b)
    ensures LStrip(b) == []
    decreases |b|
  {
    if |b| > 0 {
      StripOfSpace(b[1..]);
    }
  }

  lemma {:induction false} StripIgnoresTrailingSpace(x: string, b: string)
    requires AllSpace(b)
    ensures Strip(x + b) == Strip(x)
    decreases |x|
  {
    if |x| == 0 {
      assert x + b == b;
      StripOfSpace(b);
    } else if IsSpace(x[0]) {
      assert (x + b)[1..] == x[1..] + b;
      StripIgnoresTrailingSpace(x[1..], b);
    } else {
      RStripSpaceSuffix(x, b);
    }
  }

  /** `strip` ignores whitespace added on either side. */
  lemma StripIgnoresPadding(a: string, x: string, b: string)
    requires AllSpace(a) && AllSpace(b)
    ensures Strip(a + x + b) == Strip(x)
  {
    assert a + x + b == a + (x + b);
    LStripSpacePrefix(a, x + b);
    StripIgnoresTrailingSpace(x, b);
  }

  /** Upper-casing first does not change the lower-cased text. */
  lemma LowerOfUpper(s: string)
    ensures Lower(Upper(s)) == Lower(s)
  {
  }

  /** Whatever sits in the middle of a concatenation is contained in it. */
  lemma ContainsMiddle(a: string, b: string, c: string)
    ensures Contains(a + b + c, b)
  {
    assert (a + b + c)[|a|..|a| + |b|] == b;
    assert OccursAt(a + b + c, b, |a|);
  }

  /** A separator-free head joins the first piece of what follows it. */
  lemma {:induction false} SplitFreeHead(w: string, t: string, sep: char)
    requires Free(w, sep)
    ensures Split(w + t, sep) == [w + Split(t, sep)[0]] + Split(t, sep)[1..]
    decreases |w|
  {
    if |w| == 0 {
      assert w + t == t;
      assert w + Split(t, sep)[0] == Split(t, sep)[0];
      assert [Split(t, sep)[0]] + Split(t, sep)[1..] == Split(t, sep);
    } else {
      assert (w + t)[1..] == w[1..] + t;
      SplitFreeHead(w[1..], t, sep);
      assert [w[0]] + (w[1..] + Split(t, sep)[0]) == w + Split(t, sep)[0];
    }
  }

  /** Splitting a join on the same separator gives the pieces back, when
      no piece holds the separator. */
  lemma {:induction false} SplitJoin(pieces: seq<string>, sep: char)
    requires |pieces| >= 1
    requires forall k :: 0 <= k < |pieces| ==> Free(pieces[k], sep)
    ensures Split(Join([sep], pieces), sep) == pieces
    decreases |pieces|
  {
    if |pieces| == 1 {
      SplitFreeHead(pieces[0], "", sep);
      assert pieces[0] + "" == pieces[0];
    } else {
      var tail := Join([sep], pieces[1..]);
      SplitJoin(pieces[1..], sep);
      assert ([sep] + tail)[1..] == tail;
      assert Split([sep] + tail, sep) == [""] + pieces[1..];
      assert pieces[0] + [sep] + tail == pieces[0] + ([sep] + tail);
      SplitFreeHead(pieces[0], [sep] + tail, sep);
      assert pieces[0] + "" == pieces[0];
      assert [pieces[0]] + pieces[1..] == pieces;
    }
  }

  lemma ContainsPrefixOfKeyword(s: string, word: string, k: nat)
    requires k <= |word|
    requires Contains(s, word)
    ensures Contains(s, word[..k])
  {
    var i :| 0 <= i <= |s| - |word| && OccursAt(s, word, i);
    assert s[i..i + k] == word[..k];
    assert OccursAt(s, word[..k], i);
  }
}

=== FILE: ui_utils.dfy ===
/** The Streamlit front end's helpers: the API client's base URL, upload
    validation, answer formatting, text truncation and the session-state
    bookkeeping.

    HTTP requests, temporary files, MIME guessing and the clock are left
    out; the history timestamp is a parameter. */
module UiUtils {
  import opened Wrappers
  import opened PyText

  // ---------------------------------------------------------------------
  // API client
  // ---------------------------------------------------------------------

  const DefaultApiBaseUrl: string := "http://localhost:8001"
  const DefaultTimeout: int := 30

  datatype ApiClient = ApiClient(baseUrl: string, timeout: int)

  /** `APIClient(base_url, timeout)`: trailing slashes are dropped from the
      base URL, and nothing else. */
  function NewApiClient(baseUrl: string, timeout: int): (c: ApiClient)
    ensures c.timeout == timeout
    ensures |c.baseUrl| <= |baseUrl| && c.baseUrl == baseUrl[..|c.baseUrl|]
    ensures |c.baseUrl| == 0 || c.baseUrl[|c.baseUrl| - 1] != '/'
    ensures forall i :: |c.baseUrl| <= i < |baseUrl| ==> baseUrl[i] == '/'
  {
    ApiClient(RStripChar(baseUrl, '/'), timeout)
  }

  /** The URL of an endpoint: `f"{self.base_url}/{path}"`. */
  function EndpointUrl(c: ApiClient, path: string): string {
    c.baseUrl + "/" + path
  }

  /** However many slashes the configured URL ends with, an endpoint URL
      has exactly one between the base and the path. */
  lemma EndpointHasSingleSlash(baseUrl: string, slashes: nat, timeout: int, path: string)
    requires |baseUrl| > 0 && baseUrl[|baseUrl| - 1] != '/'
    ensures EndpointUrl(NewApiClient(baseUrl + seq(slashes, _ => '/'), timeout), path)
      == baseUrl + "/" + path
  {
    var padded := baseUrl + seq(slashes, _ => '/');
    var c := NewApiClient(padded, timeout);
    assert padded[..|baseUrl|] == baseUrl;
    assert padded[|baseUrl| - 1] != '/';
    assert |c.baseUrl| >= |baseUrl|;
    assert padded[|c.baseUrl| - 1] == c.baseUrl[|c.baseUrl| - 1];
    assert |c.baseUrl| == |baseUrl|;
  }

  /** Building a client from another client's URL keeps that URL. */
  lemma NewApiClientIdempotent(baseUrl: string, timeout: int)
    ensures NewApiClient(NewApiClient(baseUrl, timeout).baseUrl, timeout) == NewApiClient(baseUrl, timeout)
  {
  }

  // ---------------------------------------------------------------------
  // Upload validation
  // ---------------------------------------------------------------------

  /** The position of the last `c` in `s`: `s.rfind(c)`, `None` for -1. */
  function LastIndexOf(s: string, c: char): (r: Option<nat>)
    ensures r.Some? ==> r.value < |s| && s[r.value] == c
    ensures r.Some? ==> forall j :: r.value < j < |s| ==> s[j] != c
    ensures r.None? ==> forall j :: 0 <= j < |s| ==> s[j] != c
  {
    if |s| == 0 then None
    else if s[|s| - 1] == c then Some(|s| - 1)
    else LastIndexOf(s[..|s| - 1], c)
  }

  /** Some character of `p[lo..hi]` is not a dot. */
  predicate HasNonDot(p: string, lo: nat, hi: nat)
    requires hi <= |p|
  {
    exists k :: lo <= k < hi && p[k] != '.'
  }

  /** `os.path.splitext(p)` on POSIX: the extension runs from the last dot
      after the last slash, unless only dots precede that dot in the final
      component (so `.wav` has no extension). */
  function SplitExt(p: string): (r: (string, string))
    ensures r.0 + r.1 == p
    ensures r.1 == "" || (r.1[0] == '.' && forall k :: 1 <= k < |r.1| ==> r.1[k] != '.' && r.1[k] != '/')
  {
    var start: nat := match LastIndexOf(p, '/') case Some(i) => i + 1 case None => 0;
    match LastIndexOf(p, '.')
    case Some(dot) =>
      if start <= dot && HasNonDot(p, start, dot) then
        assert p[..dot] + p[dot..] == p;
        (p[..dot], p[dot..])
      else (p, "")
    case None => (p, "")
  }

  /** `root` ends in a final path component that is not all dots. */
  predicate HasStem(root: string) {
    exists k :: 0 <= k < |root| && root[k] != '.' && root[k] != '/' &&
      forall j :: k < j < |root| ==> root[j] != '/'
  }

  /** A dot followed by text with no dot and no slash. */
  predicate IsExtension(ext: string) {
    |ext| > 0 && ext[0] == '.' && forall k :: 1 <= k < |ext| ==> ext[k] != '.' && ext[k] != '/'
  }

  /** The other direction: a stem followed by an extension is split exactly
      there. */
  lemma SplitExtFindsExtension(root: string, ext: string)
    requires HasStem(root) && IsExtension(ext)
    ensures SplitExt(root + ext) == (root, ext)
  {
    var p := root + ext;
    var k :| 0 <= k < |root| && root[k] != '.' && root[k] != '/' && forall j :: k < j < |root| ==> root[j] != '/';
    assert p[|root|] == '.';
    assert forall j :: |root| < j < |p| ==> p[j] == ext[j - |root|];
    var dot := LastIndexOf(p, '.');
    assert dot == Some(|root|);
    var start: nat := match LastIndexOf(p, '/') case Some(i) => i + 1 case None => 0;
    assert forall j :: k <= j < |p| ==> p[j] != '/';
    assert start <= k;
    assert p[k] == root[k];
    assert HasNonDot(p, start, |root|);
    assert p[..|root|] == root && p[|root|..] == ext;
  }

  /** A file name Streamlit hands over, with its size in bytes. */
  datatype UploadedFile = UploadedFile(name: string, size: nat)

  const AllowedAudioExtensions: set<string> := {".wav", ".mp3", ".m4a", ".ogg", ".flac", ".webm"}
  const MaxAudioSizeMb: nat := 25
  const BytesPerMb: nat := 1024 * 1024

  /** An order in which the extension set may be iterated: each extension
      exactly once. */
  predicate IsListing(listing: seq<string>) {
    && (forall i :: 0 <= i < |listing| ==> listing[i] in AllowedAudioExtensions)
    && (forall e :: e in AllowedAudioExtensions ==> e in listing)
    && (forall i, j :: 0 <= i < j < |listing| ==> listing[i] != listing[j])
  }

  function UnsupportedMessage(listing: seq<string>): string {
    "Unsupported file type. Allowed: " + Join(", ", listing)
  }

  const NoFileMessage: string := "No file uploaded"
  const TooLargeMessage: string := "File too large. Maximum size: 25 MB"
  const EmptyFileMessage: string := "File is empty"

  /** The extension the check looks at: that of the lower-cased name. */
  function AudioExtension(name: string): string {
    SplitExt(Lower(name)).1
  }

  /** `size_mb > MAX_AUDIO_SIZE_MB` with `size_mb = size / (1024 * 1024)`:
      the division by 2^20 is exact, so this is a comparison of whole byte
      counts. */
  predicate TooLarge(size: nat)
    ensures TooLarge(size) <==> size > MaxAudioSizeMb * BytesPerMb
  {
    size as real / BytesPerMb as real > MaxAudioSizeMb as real
  }

  /** `size_mb == 0` */
  predicate Empty(size: nat)
    ensures Empty(size) <==> size == 0
  {
    size as real / BytesPerMb as real == 0.0
  }

  /** `validate_audio_file(file)`, with `listing` the order in which the
      runtime iterates the extension set. */
  function ValidateAudioFile(file: Option<UploadedFile>, listing: seq<string>): (r: (bool, string))
    requires IsListing(listing)
    ensures r.0 <==> file.Some? && AudioExtension(file.value.name) in AllowedAudioExtensions
                     && 0 < file.value.size <= MaxAudioSizeMb * BytesPerMb
    ensures r.0 <==> r.1 == ""
    ensures file.None? ==> r.1 == NoFileMessage
    ensures file.Some? && AudioExtension(file.value.name) !in AllowedAudioExtensions ==>
      r.1 == UnsupportedMessage(listing)
    ensures file.Some? && AudioExtension(file.value.name) in AllowedAudioExtensions ==>
      && (file.value.size > MaxAudioSizeMb * BytesPerMb <==> r.1 == TooLargeMessage)
      && (file.value.size == 0 <==> r.1 == EmptyFileMessage)
  {
    match file
    case None => (false, NoFileMessage)
    case Some(f) =>
      if AudioExtension(f.name) !in AllowedAudioExtensions then (false, UnsupportedMessage(listing))
      else if TooLarge(f.size) then (false, TooLargeMessage)
      else if Empty(f.size) then (false, EmptyFileMessage)
      else (true, "")
  }

  /** An accepted upload's name ends, in any letter case, with one of the
      allowed extensions. */
  lemma AcceptedNameEndsWithExtension(file: Option<UploadedFile>, listing: seq<string>)
    requires IsListing(listing)
    requires ValidateAudioFile(file, listing).0
    ensures exists e :: e in AllowedAudioExtensions && EndsWith(Lower(file.value.name), e)
  {
    var lowered := Lower(file.value.name);
    var (root, ext) := SplitExt(lowered);
    assert lowered == root + ext;
    assert lowered[|lowered| - |ext|..] == ext;
    assert EndsWith(lowered, ext);
  }

  /** A hidden file named after an extension has no extension of its own
      and is refused as unsupported. */
  lemma HiddenAudioNameRefused(listing: seq<string>)
    requires IsListing(listing)
    ensures ValidateAudioFile(Some(UploadedFile(".wav", 1000)), listing) == (false, UnsupportedMessage(listing))
  {
    assert Lower(".wav") == ".wav";
    assert LastIndexOf(".wav", '/') == None;
    assert ".wav"[0] == '.' && ".wav"[1] == 'w' && ".wav"[2] == 'a' && ".wav"[3] == 'v';
    assert LastIndexOf(".wav", '.') == Some(0);
    assert AudioExtension(".wav") == "";
  }

  /** Exactly 25 MiB is accepted; one byte more is refused. */
  lemma SizeLimitIsInclusive(listing: seq<string>)
    requires IsListing(listing)
    ensures ValidateAudioFile(Some(UploadedFile("a.mp3", 26214400)), listing).0
    ensures ValidateAudioFile(Some(UploadedFile("a.mp3", 26214401)), listing) == (false, TooLargeMessage)
  {
    assert Lower("a.mp3") == "a.mp3";
    assert LastIndexOf("a.mp3", '/') == None;
    assert "a.mp3"[1] == '.' && "a.mp3"[2] == 'm' && "a.mp3"[3] == 'p' && "a.mp3"[4] == '3';
    assert LastIndexOf("a.mp3", '.') == Some(1);
    assert HasNonDot("a.mp3", 0, 1) by { assert "a.mp3"[0] != '.'; }
    assert AudioExtension("a.mp3") == ".mp3";
  }

  // ---------------------------------------------------------------------
  // Answer formatting and truncation
  // ---------------------------------------------------------------------

  const UnexpectedFormatMessage: string := "Unexpected response format from server"

  /** The three shapes `format_answer_response` produces. */
  datatype Answer<V> =
    | Answered(question: V, answer: V, audioFile: Option<V>)
    | ServerError(error: V)
    | UnexpectedFormat

  /** `format_answer_response(data)`: an error key wins over everything;
      otherwise both the question and the answer must be present. */
  function FormatAnswerResponse<V>(data: map<string, V>): (r: Answer<V>)
    ensures r.ServerError? <==> "error" in data
    ensures r.ServerError? ==> r.error == data["error"]
    ensures r.Answered? <==> "error" !in data && "question" in data && "answer" in data
    ensures r.Answered? ==>
      && r.question == data["question"] && r.answer == data["answer"]
      && (r.audioFile.Some? <==> "answer_audio_file" in data)
      && (r.audioFile.Some? ==> r.audioFile.value == data["answer_audio_file"])
  {
    if "error" in data then ServerError(data["error"])
    else if "question" in data && "answer" in data then
      Answered(data["question"], data["answer"],
               if "answer_audio_file" in data then Some(data["answer_audio_file"]) else None)
    else UnexpectedFormat
  }

  /** An error key decides the answer whatever else the response holds. */
  lemma ErrorKeyWins<V>(data: map<string, V>, e: V)
    ensures FormatAnswerResponse(data["error" := e]) == ServerError(e)
  {
  }

  /** Only the four keys the function reads matter: any other key can be
      added or changed without changing the formatted answer. */
  lemma OtherKeysIgnored<V>(data: map<string, V>, k: string, v: V)
    requires k !in {"error", "question", "answer", "answer_audio_file"}
    ensures FormatAnswerResponse(data[k := v]) == FormatAnswerResponse(data)
  {
  }

  /** A response with a question and an answer but no error is answered
      with exactly those, with or without an audio file. */
  lemma QuestionAndAnswerSuffice<V>(q: V, a: V, audio: Option<V>)
    ensures var data := if audio.Some? then map["question" := q, "answer" := a, "answer_audio_file" := audio.value]
                        else map["question" := q, "answer" := a];
      FormatAnswerResponse(data) == Answered(q, a, audio)
  {
  }

  const Ellipsis: string := "..."
  const DefaultMaxLength: int := 500

  /** `truncate_text(text, max_length)` as written: `text[:max_length - 3] + "..."`
      for a text that is too long. */
  function TruncateText(text: string, maxLength: int): (r: string)
    ensures |text| <= maxLength ==> r == text
    ensures |text| > maxLength ==> EndsWith(r, Ellipsis) && r[..|r| - 3] == PyPrefix(text, maxLength - 3)
    ensures |text| > maxLength >= 3 ==> |r| == maxLength && r == text[..maxLength - 3] + Ellipsis
  {
    if |text| <= maxLength then text else PyPrefix(text, maxLength - 3) + Ellipsis
  }

  /** A short limit makes the "truncated" text longer than the limit, and
      longer than the text itself. */
  lemma TruncateOverrunsShortLimit()
    ensures TruncateText("hello", 2) == "hell..."
    ensures |TruncateText("hello", 2)| > 2
    ensures |TruncateText("abc", 1)| > |"abc"|
  {
    assert PyPrefix("hello", -1) == "hell";
    assert PyPrefix("abc", -2) == "a";
  }

  /** Truncation with the result bounded by the limit for every limit: a
      limit too short to hold the ellipsis keeps a plain prefix. */
  function TruncateTextBounded(text: string, maxLength: int): (r: string)
    ensures maxLength >= 0 ==> |r| <= maxLength || r == text
    ensures |text| <= maxLength ==> r == text
    ensures maxLength >= 3 ==> r == TruncateText(text, maxLength)
    ensures |text| > maxLength >= 0 ==> |r| == maxLength
  {
    if |text| <= maxLength then text
    else if maxLength < 3 then PyPrefix(text, maxLength)
    else TruncateText(text, maxLength)
  }

  /** Truncating again to the same limit changes nothing, and the result
      never exceeds a non-negative limit. */
  lemma TruncateBoundedIdempotent(text: string, maxLength: int)
    requires maxLength >= 0
    ensures |TruncateTextBounded(text, maxLength)| <= maxLength || TruncateTextBounded(text, maxLength) == text
    ensures TruncateTextBounded(TruncateTextBounded(text, maxLength), maxLength) == TruncateTextBounded(text, maxLength)
  {
  }

  // ---------------------------------------------------------------------
  // Session state
  // ---------------------------------------------------------------------

  datatype HistoryEntry = HistoryEntry(timestamp: string, question: string, answer: string)

  /** The values the front end keeps in its session state. */
  datatype SessionValue =
    | History(entries: seq<HistoryEntry>)
    | Text(text: string)
    | NoValue
    | Client(client: ApiClient)
    | Flag(flag: bool)
    | Number(number: int)

  type Session = map<string, SessionValue>

  const ChatHistory: string := "chat_history"
  const LastQuestion: string := "last_question"
  const LastAnswer: string := "last_answer"
  const ApiClientKey: string := "api_client"

  const Defaults: Session := map[
    ChatHistory := History([]),
    LastQuestion := Text(""),
    LastAnswer := Text(""),
    ApiClientKey := NoValue,
    "is_processing" := Flag(false),
    "error_count" := Number(0)
  ]

  /** `SessionState.init_defaults(state)`: every missing default is added;
      values already present are kept. */
  function InitDefaults(s: Session): (r: Session)
    ensures r.Keys == s.Keys + Defaults.Keys
    ensures forall k :: k in s ==> r[k] == s[k]
    ensures forall k :: k in Defaults && k !in s ==> r[k] == Defaults[k]
  {
    map k | k in s.Keys + Defaults.Keys :: if k in s then s[k] else Defaults[k]
  }

  lemma InitDefaultsIdempotent(s: Session)
    ensures InitDefaults(InitDefaults(s)) == InitDefaults(s)
  {
  }

  /** A session whose chat history is a list, as `add_to_history` needs. */
  predicate HasHistory(s: Session) {
    ChatHistory in s && s[ChatHistory].History?
  }

  /** `SessionState.add_to_history(state, question, answer)`; the entry's
      timestamp is a parameter. */
  function AddToHistory(s: Session, question: string, answer: string, timestamp: string): (r: Session)
    requires HasHistory(s)
    ensures HasHistory(r)
    ensures r.Keys == s.Keys + {LastQuestion, LastAnswer}
    ensures r[ChatHistory].entries == s[ChatHistory].entries + [HistoryEntry(timestamp, question, answer)]
    ensures r[LastQuestion] == Text(question) && r[LastAnswer] == Text(answer)
    ensures forall k :: k in s && k !in {ChatHistory, LastQuestion, LastAnswer} ==> r[k] == s[k]
  {
    s[ChatHistory := History(s[ChatHistory].entries + [HistoryEntry(timestamp, question, answer)])]
     [LastQuestion := Text(question)]
     [LastAnswer := Text(answer)]
  }

  /** `SessionState.clear_history(state)` */
  function ClearHistory(s: Session): (r: Session)
    ensures r.Keys == s.Keys + {ChatHistory, LastQuestion, LastAnswer}
    ensures HasHistory(r) && r[ChatHistory].entries == []
    ensures r[LastQuestion] == Text("") && r[LastAnswer] == Text("")
    ensures forall k :: k in s && k !in {ChatHistory, LastQuestion, LastAnswer} ==> r[k] == s[k]
  {
    s[ChatHistory := History([])][LastQuestion := Text("")][LastAnswer := Text("")]
  }

  /** Clearing forgets everything an added exchange changed. */
  lemma ClearUndoesAdd(s: Session, question: string, answer: string, timestamp: string)
    requires HasHistory(s)
    ensures ClearHistory(AddToHistory(s, question, answer, timestamp)) == ClearHistory(s)
  {
  }

  /** A history of exchanges, oldest first. */
  function AddAll(s: Session, exchanges: seq<HistoryEntry>): (r: Session)
    requires HasHistory(s)
    ensures HasHistory(r)
    ensures s.Keys <= r.Keys
    ensures |exchanges| > 0 ==> LastQuestion in r && LastAnswer in r
    decreases |exchanges|
  {
    if |exchanges| == 0 then s
    else
      var e := exchanges[0];
      AddAll(AddToHistory(s, e.question, e.answer, e.timestamp), exchanges[1..])
  }

  /** After any number of additions the history is the old one followed by
      exactly the exchanges added, in order, and the last question and
      answer are the last ones. */
  lemma {:induction false} HistoryRecordsEveryExchange(s: Session, exchanges: seq<HistoryEntry>)
    requires HasHistory(s)
    ensures AddAll(s, exchanges)[ChatHistory].entries == s[ChatHistory].entries + exchanges
    ensures |exchanges| > 0 ==>
      && AddAll(s, exchanges)[LastQuestion] == Text(exchanges[|exchanges| - 1].question)
      && AddAll(s, exchanges)[LastAnswer] == Text(exchanges[|exchanges| - 1].answer)
    decreases |exchanges|
  {
    if |exchanges| > 0 {
      var e := exchanges[0];
      var s' := AddToHistory(s, e.question, e.answer, e.timestamp);
      HistoryRecordsEveryExchange(s', exchanges[1..]);
      assert s[ChatHistory].entries + [e] + exchanges[1..] == s[ChatHistory].entries + exchanges;
      if |exchanges| == 1 {
        assert exchanges[1..] == [];
      } else {
        assert exchanges[1..][|exchanges[1..]| - 1] == exchanges[|exchanges| - 1];
      }
    }
  }

  /** The defaults make a fresh session ready for `add_to_history`. */
  lemma DefaultsProvideHistory(s: Session)
    requires ChatHistory !in s
    ensures HasHistory(InitDefaults(s)) && InitDefaults(s)[ChatHistory].entries == []
  {
  }

  /** `SessionState.get_api_client(state, base_url)`: a client is created
      only when the stored one is `None`, and is then stored. */
  function GetApiClient(s: Session, baseUrl: string): (r: (Session, SessionValue))
    requires ApiClientKey in s
    ensures s[ApiClientKey].NoValue? ==>
      r.1 == Client(NewApiClient(baseUrl, DefaultTimeout)) && r.0 == s[ApiClientKey := r.1]
    ensures !s[ApiClientKey].NoValue? ==> r == (s, s[ApiClientKey])
    ensures r.0[ApiClientKey] == r.1 && !r.1.NoValue?
  {
    if s[ApiClientKey].NoValue? then
      var c := Client(NewApiClient(baseUrl, DefaultTimeout));
      (s[ApiClientKey := c], c)
    else (s, s[ApiClientKey])
  }
}

=== FILE: wrappers.dfy ===
/** Optional and fallible values shared by every module of the model. */
module Wrappers {

  /** A value that may be absent. An undefined indicator (a pandas
      NaN) is `None`. */
  datatype Option<+T> = None | Some(value: T) {

    /** The encapsulated value, or `default` when there is none. */
    function GetOr(default: T): T {
      match this
      case Some(v) => v
      case None => default
    }
  }

  /** The outcome of an operation that reports failure as a value instead
      of raising. */
  datatype Result<+R, +E> = Success(value: R) | Failure(error: E)
}
